=== FILE: README.md ===
# Player Guessing Engine — a Dafny model

The Player Guessing Engine is a twenty-questions game over a catalogue of
football players. It keeps a *belief state*, an insertion-ordered dictionary
from player name to probability. It starts uniform over the catalogue. Each
round it scores every attribute of the schema (`club`, `position`,
`nationality`, `retired`, `ballon_dor`, `champions_league`) by its
*information gain*: the Shannon entropy of the belief minus the weighted
entropy left inside the groups of players that share a value. It asks about
the first attribute with the largest positive gain. Players that disagree
with the answer drop to zero, and the survivors are renormalised. The game
ends when one of the following happens:

- no player is left;
- exactly one player is left;
- no question has positive gain;
- the top probability exceeds 0.95;
- twenty questions have been asked.

The model follows `main.py`, module by module:

| file | module | models |
|---|---|---|
| `wrappers.dfy` | `Wrappers` | `Option` (Python's `None` / value) |
| `seqs.dfy` | `Seqs` | mapping over sequences, sequences without repetitions, rearrangements |
| `reals.dfy` | `Reals` | sums over real sequences and their independence of order; Python's `max` (first maximum); counting and finding positive entries |
| `text.dfy` | `Text` | `str.lower`, `str.strip`, and `sorted(set(...))` on strings |
| `catalogue.dfy` | `Catalogue` | player records, `ATTRIBUTES`, the boolean attributes, `bool(v)` and `str(v)` |
| `belief.dfy` | `Belief` | the belief state as an ordered dictionary; live count; the first live name; `max(state, key=state.get)`; confidence |
| `entropy.dfy` | `Information` | `entropy` |
| `gain.dfy` | `Scoring` | `information_gain`: value groups, group weights, weighted entropy, the clamp at zero |
| `agreement.dfy` | `Agreement` | `information_gain` of an attribute on which every live player agrees |
| `selection.dfy` | `Selection` | `best_question`: gains, answer options, the choice of the best attribute |
| `update.dfy` | `Update` | `update_state`: reading a text answer, matching, elimination, normalisation |
| `engine.dfy` | `Engine` | the control logic of `run_engine`: uniform prior, the question loop, with the source's five stops plus `OutOfAnswers` and `NoCatalogue` |

The design has four parts:

- **Functions and methods.** Each operation is a Dafny function that states
  what the source computes. Where the source computes with a loop, a method
  does the same with a `for` or `while` loop, as the source does. The method is proved equal to the
  function: `Scoring.InformationGain`, `Selection.BestQuestion`,
  `Update.UpdateState` and `Engine.RunEngine`.
- **The logarithm.** Floating point and `math.log2` become exact reals and a
  parameter `log2: real -> real`. Every property holds for any `log2`,
  except the sign of entropy. Its non-negativity assumes `log2(p) <= 0` on
  `(0, 1]`, and its positivity assumes `log2(p) < 0` on `(0, 1)`. The logarithm is never evaluated outside the positive reals.
- **The game loop.** `run_engine`'s loop is three mutually recursive
  functions. `Engine.Play` stops on the budget or on fewer than two live
  players. `Engine.Ask` chooses a question. `Engine.Answer` applies the reply
  and stops when the confidence exceeds 0.95. The user's answers come as a
  sequence of replies given in advance. Each stopping reason is a case of
  `Engine.Stop`.
- **The belief state.** `Belief.State` holds the key order (`names`) and the
  weights (`weight`). `State.Get` is Python's `state.get(name, 0)`.

## Model

| member | source | states |
|---|---|---|
| Reals.FirstMaxIndex | main.py:164 | Python's `max` over a non-empty sequence: an index whose value is at least every value and strictly greater than every earlier value (the first maximum) |
| Reals.CountPositive | main.py:316 | the count is the number of positions holding a positive entry; it is at most the length, and zero exactly when no entry is positive |
| Reals.FirstPositive | main.py:325 | the first positive entry: it is positive and every earlier entry is not |
| Reals.SumPermutation | main.py:70 | `sum` does not depend on the order of its terms |
| Text.Lower | main.py:177 | `lower()` keeps the length, turns each letter A–Z into its lower-case form (code point + 32) and keeps every other character |
| Text.Strip | main.py:177 | `strip()` returns a slice `s[i..j]` of the input with only whitespace before `i` and after `j`, and no whitespace at either end of the slice; a string without outer whitespace is returned unchanged |
| Text.StartOfText | main.py:177 | the text of a string starts at the first non-whitespace position from `i`; everything skipped is whitespace |
| Text.EndOfText | main.py:177 | looking back from `j`, the text ends after the last non-whitespace character; everything skipped is whitespace |
| Text.LowerEqualIgnoresCase | main.py:199-201 | two strings lower to the same string exactly when they differ at most in the case of the letters A–Z |
| Text.LessIrreflexive | main.py:157 | no string sorts before itself |
| Text.LessTransitive | main.py:157 | the string order used by `sorted` is transitive |
| Text.LessTotal | main.py:157 | any two distinct strings are ordered one way or the other |
| Text.Insert | main.py:157 | inserting into a strictly sorted list keeps it strictly sorted and adds exactly the new element |
| Text.SortedSet | main.py:157 | `sorted(set(xs))` is strictly increasing and holds exactly the elements of `xs` |
| Catalogue.Schema | main.py:127-134 | six distinct attributes are scored; `retired`, `ballon_dor` and `champions_league`, the last three, are exactly the yes/no ones (main.py:96) |
| Belief.State.Values | main.py:84 | `list(state.values())`: one weight per key, in insertion order |
| Belief.State.Put | main.py:204-206 | a dictionary assignment: the key gets the new weight, every other weight is unchanged, a new key goes last and an old key keeps its place |
| Belief.State.DividedBy | main.py:211-212 | every weight is divided by the total and the key order is unchanged |
| Belief.State.FirstLive | main.py:325 | the winner picked when one player is left is a key with positive weight |
| Belief.State.Top | main.py:375 | `max(state, key=state.get, default=None)` is `None` exactly for an empty state, and otherwise a key of the state |
| Belief.State.LiveCount | main.py:316 | the number of keys with positive weight: it is at most the number of keys, and zero exactly when no key has positive weight |
| Belief.State.Confidence | main.py:375-376 | when the top key is a non-empty name, the confidence is that key's weight and at least every weight in the state; with no top key or an empty one it is zero |
| Belief.TopIsFirstMaximum | main.py:375 | the top key weighs at least as much as every key, and strictly more than every key inserted before it |
| Belief.DividedByTotal | main.py:208-212 | dividing every weight by a non-zero total leaves weights that sum to one |
| Belief.OnlyLive | main.py:324-325 | with exactly one live key, every other key has weight zero or less |
| Belief.SingleLive | main.py:316 | one positive entry in a sequence means every other entry is not positive |
| Information.Positives | main.py:65 | the filtered list keeps only positive probabilities and is no longer than the input |
| Information.PositivesMeaning | main.py:65 | the filter keeps every positive value as often as it occurs, and drops every value that is not positive |
| Information.Entropy | main.py:57-70 | the entropy of an empty list, or of a list with at most one positive probability, is zero |
| Information.EntropyNonNegative | main.py:57-70 | entropy is non-negative when the probabilities are at most one and `log2` is non-positive on (0, 1] |
| Information.SumPLogPNegative | main.py:70 | the sum of `p * log2(p)` over a non-empty list of values in (0, 1) is negative when `log2` is negative there |
| Information.EntropyPositive | main.py:57-70 | with at least two positive entries, all below one, entropy is positive when `log2` is negative on (0, 1); with `Entropy`'s own ensures, entropy is zero exactly when at most one entry is positive |
| Information.SumPLogPNonPositive | main.py:70 | the sum of `p * log2(p)` over probabilities in (0, 1] is not positive |
| Information.EntropyReadsLogOnlyAtPositives | main.py:65-70 | entropy depends on `log2` only at positive arguments (zero and negative probabilities are filtered out first) |
| Information.EntropyPermutation | main.py:57-70 | entropy depends only on how often each positive value occurs, not on order or on the zero entries |
| Scoring.GroupsOf | main.py:91-100 | `value_groups` has distinct keys, each key has its list of names, and no key lacks one |
| Scoring.GroupKey | main.py:93-99 | a player is skipped exactly when it lacks the attribute; a yes/no attribute is keyed `"True"` exactly when the value is truthy and `"False"` exactly when it is not; any other attribute is keyed by `str` of its value |
| Scoring.GroupsUpToValid | main.py:91-100 | building the groups player by player keeps the keys distinct and in step with the dictionary |
| Scoring.NoNamesKeyed | main.py:92-100 | a key no player has been grouped under yet has no names |
| Scoring.GroupsUpToKeys | main.py:92-100 | a key is a group exactly when some player holding the attribute is keyed to it; players without the attribute are skipped |
| Scoring.GroupsUpToMembers | main.py:100 | each group lists, in catalogue order, the names of exactly the players keyed to it |
| Scoring.SingleGroup | main.py:103 | there is at most one group exactly when every player holding the attribute shares one key |
| Scoring.Gain | main.py:75-122 | the gain is never negative; it is zero with no players, an empty state or a zero total weight, and zero when there is at most one group |
| Scoring.UselessAttributeHasNoGain | main.py:102-104 | an attribute on which all players holding it agree has zero gain |
| Scoring.ContributionReadsLogOnlyAtPositives | main.py:111-120 | one group's share of the weighted entropy depends on `log2` only at positive arguments |
| Scoring.WeightedReadsLogOnlyAtPositives | main.py:107-121 | the weighted entropy depends on `log2` only at positive arguments |
| Scoring.GainReadsLogOnlyAtPositives | main.py:75-122 | the gain depends on `log2` only at positive arguments |
| Scoring.GroupProbs | main.py:117 | a group's probability list has at most one entry per name, and every entry is positive when the group weight is |
| Scoring.GroupPlayers | main.py:91-100 | the grouping loop builds exactly `GroupsOf`, the groups specified by the keys and members lemmas |
| Scoring.WeighGroups | main.py:107-121 | the weighted-entropy loop computes exactly the sum of the groups' contributions |
| Scoring.InformationGain | main.py:75-122 | the imperative `information_gain` returns exactly `Gain`, so it inherits its bounds and zero cases |
| Agreement.LiveOfMeaning | main.py:117 | the live names of a list are exactly its names with positive weight, without repetitions if the list has none |
| Agreement.GroupProbsMeaning | main.py:117 | a group's probabilities are the weights of its live names, in order, each divided by the group weight |
| Agreement.GroupProbsAtOne | main.py:117 | against a group weight of one, a group's probabilities are the weights of its live names, in order |
| Agreement.SumOfLive | main.py:111 | with no negative weights, the names at weight zero add nothing to a group weight |
| Agreement.GroupWeightIsSum | main.py:111 | a group weight is the sum of the weights of the group's names |
| Agreement.GroupProbsSumToOne | main.py:111-117 | with no negative weights, the probabilities of a group of positive weight sum to one |
| Agreement.NamesKeyedMeaning | main.py:92-100 | a group lists a name exactly when a player with that name is keyed to the group |
| Agreement.NamesKeyedDistinct | main.py:92-100 | with distinct player names no group lists a name twice |
| Agreement.WeightedOneGroup | main.py:107-121 | when every group but one contributes nothing, the weighted entropy is that one group's contribution |
| Agreement.DeadGroup | main.py:111-114 | a group keyed differently from the live players has weight zero and contributes nothing |
| Agreement.LiveGroupNames | main.py:100-117 | the group keyed like the live players holds exactly the live names of the state |
| Agreement.WholeWeight | main.py:108-111 | a group holding every live name weighs the whole total |
| Agreement.WholeEntropy | main.py:84-120 | such a group, against a total of one, has the entropy of the whole state |
| Agreement.WholeContribution | main.py:107-120 | such a group's share of the weighted entropy is the entropy of the whole distribution |
| Agreement.LiveAgreementHasNoGain | main.py:75-122 | for a distribution over distinct catalogue players, an attribute on which every live player agrees has zero gain, whatever the eliminated players hold |
| Selection.LiveValuesMeaning | main.py:156-157 | the collected values are exactly the attribute values held by players with positive weight |
| Selection.AnswerOptionsMeaning | main.py:152-159 | a boolean attribute offers `["yes", "no"]`; any other attribute offers the values live players hold, strictly sorted and without duplicates |
| Selection.PositiveAttributes | main.py:146-149 | the attributes entered into `gains` are exactly those with positive gain, in schema order |
| Selection.PairsStep | main.py:146-149 | scoring one more attribute appends it to `gains` exactly when its gain is positive |
| Selection.NoPositives | main.py:161-162 | an empty `gains` means no attribute has positive gain |
| Selection.FirstMaxOfPositives | main.py:164 | the first maximum among the positive gains is the first attribute of largest gain over the whole schema |
| Selection.BestIndex | main.py:146-164 | no attribute is chosen exactly when no gain is positive; otherwise the chosen attribute has a positive gain that no other exceeds, and every earlier one has less |
| Selection.PairsPick | main.py:161-164 | `max(gains, key=gains.get)` picks the attribute that `BestIndex` picks, and `gains` is empty exactly when `BestIndex` picks none |
| Selection.SelectQuestion | main.py:136-165 | no question exactly when the state has at most one key or no gain is positive; otherwise the first attribute of largest positive gain, one every player defines, with the answer options of `AnswerOptionsMeaning` |
| Selection.RecordStep | main.py:146-159 | recording one more attribute keeps `gains` and `possible_answers` in step with the scores and the answer options |
| Selection.ScoreAttributes | main.py:143-159 | the scoring loop yields the positive-gain attributes with their gains, in schema order, and the answer options recorded for each |
| Selection.BestQuestion | main.py:136-165 | the imperative `best_question` returns exactly `SelectQuestion` |
| Update.Read | main.py:176-183 | a text answer reads as yes exactly when, lowered and stripped, it is `yes`, `true` or `y`; as no exactly when it is `no`, `false` or `n`; otherwise as its lowered and stripped text |
| Update.TextAnswerReadsAsFlag | main.py:176-201 | on a boolean attribute a text answer that reads as yes or no matches like `True` or `False`; a text that reads as neither matches nobody |
| Update.TextAnswerIgnoresCase | main.py:198-201 | on any other attribute a player matches exactly when its value and the answer spell the same text up to the case of A–Z; a player matches its own value; an answer given as text acts as the value it spells |
| Update.CarriedValid | main.py:185-206 | `new_state`, built player by player, is a well-formed ordered dictionary |
| Update.CarriedKeys | main.py:186-191 | `new_state` has exactly the catalogue names whose prior weight is not zero |
| Update.CarriedWeight | main.py:188-206 | the carried weight of a player with non-zero prior is its prior when it matches the answer and zero otherwise, decided by the last player of that name |
| Update.CarriedFromPrior | main.py:203-206 | every carried weight is the prior weight of that name or zero |
| Update.LastOfNameExtends | main.py:186-206 | a player stays the last of its name while later players have other names |
| Update.CarriedLiveIsPrior | main.py:203-204 | a carried weight that is not zero equals the prior weight |
| Update.CarriedLiveMatches | main.py:188-204 | a carried weight that is not zero belongs to a name whose last player has non-zero prior and matches the answer |
| Update.CarriedNonNegative | main.py:185-206 | from non-negative prior weights the carried weights are non-negative |
| Update.DeadStateTotal | main.py:209-210 | a state whose weights are all zero has total zero, so nothing is normalised |
| Update.LiveStateTotal | main.py:209-210 | a non-negative state with a positive weight has a positive total, so it is normalised |
| Update.Updated | main.py:170-214 | `update_state` returns a well-formed ordered dictionary whose keys, in order, are those of `new_state` |
| Update.UpdatedKeys | main.py:185-191 | monotonic elimination: the updated keys are exactly the catalogue names whose prior weight is not zero |
| Update.UpdatedWeight | main.py:185-212 | a non-matching player gets zero; a matching player gets its prior weight, divided by the total when the total is positive |
| Update.UpdateKeepsDeadDead | main.py:188-191 | a player at zero, or absent, is dropped and stays at zero |
| Update.UpdatedSumsToOne | main.py:209-212 | when the carried total is positive the updated weights sum to one |
| Update.NoMatchZeroesAll | main.py:203-210 | when no carried weight survives, the update returns the unnormalised all-zero state |
| Update.UpdatedNonNegative | main.py:185-212 | from non-negative prior weights the updated weights are non-negative |
| Update.LiveMatchSumsToOne | main.py:203-212 | if some live player matches the answer, the updated weights sum to one |
| Update.NoLiveMatchZeroesAll | main.py:203-210 | if no live player matches the answer, every updated weight is zero |
| Update.UpdatedIsDistributionOrDead | main.py:170-214 | from non-negative weights the update is non-negative and either sums to one or is zero everywhere |
| Update.UpdateState | main.py:170-214 | the imperative `update_state` returns exactly `Updated` |
| Update.Normalise | main.py:211-212 | the normalisation loop divides every weight by the total and keeps the key order |
| Engine.PriorValid | main.py:304-305 | the initial state is a well-formed ordered dictionary |
| Engine.PriorWeights | main.py:304-305 | every catalogue name starts at `1 / len(players)`, and no other name has a weight |
| Engine.PriorNames | main.py:305 | with distinct names the initial state lists the players in catalogue order |
| Engine.PriorSumsToOne | main.py:304-305 | with distinct names the uniform prior sums to one |
| Engine.EngineMoves | main.py:330-367 | each round chooses its question by `best_question` and applies the reply by `update_state`, the boolean reply read as `answer == "yes"` |
| Engine.AnswerValueMatches | main.py:349-367 | on a yes/no question the reply `"yes"` keeps exactly the players with a truthy value and any other reply the others; otherwise the reply keeps the players whose value it spells up to case |
| Engine.EngineMovesEliminate | main.py:363-367 | one round of the engine never revives a player, never adds a name, keeps weights non-negative and leaves a distribution or an all-zero state |
| Engine.Play | main.py:314-328 | the rest of a game asks at most the remaining budget, one reply per question; each stopping reason holds of the final state; with eliminating moves the final state narrows the current one; below the budget it stops at once with no live player, and with exactly one names it |
| Engine.PlayAsks | main.py:314-329 | below the budget, with two or more live players, the game goes on by asking a question (`Engine.Ask`) from the same belief |
| Engine.Ask | main.py:329-361 | a round with two or more live players: stuck exactly when no question is chosen, out of answers when a question is chosen but no reply is left, and otherwise the reply to the chosen question is applied; the same accounting and elimination as `Play` |
| Engine.Answer | main.py:363-388 | the reply is applied and counted; the game stops confident on this very answer exactly when the updated confidence exceeds 0.95, naming the top key; otherwise it goes on with the chosen question recorded |
| Engine.AnswerGoesOn | main.py:363-388 | when the updated confidence is at most 0.95, the rest of the game is the next round (`Engine.Play`) played from the updated belief, with one more question asked and the chosen question recorded |
| Engine.EngineCounts | main.py:298-372 | a whole game asks at most 20 questions and at most one per reply, records each question asked, fails to start exactly on an empty catalogue, and is stuck only when `best_question` has nothing to ask |
| Engine.EngineBelief | main.py:303-372 | the final state holds only catalogue names, is non-negative and, after at least one answer, sums to one or is zero everywhere |
| Engine.IdentifiedIsSole | main.py:324-327 | the announced winner has positive weight and every other name has none |
| Engine.LimitNotice | main.py:390-391 | the limit notice is printed exactly when the budget ran out, or when a confident guess came on the twentieth answer |
| Engine.SinglePlayer | main.py:324-327 | a one-player catalogue names its player at once, without asking |
| Engine.RunEngine | main.py:298-392 | the imperative game loop returns exactly the game `Engine` describes |

## Left out

- Loading the catalogue from CSV (`load_players`) is not modelled. A catalogue is a sequence of records. `Catalogue.Complete`, meaning every player defines every attribute, stands for the loader's guarantee. Missing attributes are still modelled where `information_gain` skips them.
- `display_possible_players`, the question texts, the welcome and farewell messages, and all other printing are not modelled. This includes the final "Best guess" line.
- `get_user_input` is not modelled. Its validation loop and its handling of an interrupted input are interactive I/O. The replies are taken as already validated: a yes/no reply is `"yes"` or something else. `Engine.Stop.OutOfAnswers` stands for the user abandoning the game. In the source, an end of input is reported and prompted for again without end (main.py:283-284), and Ctrl-C exits the program (main.py:280-282).
- Typing "quit" has no special handling in the game loop, so it is an ordinary reply here as well.
- `main` and command-line handling are not modelled.
- Floating-point arithmetic and `math.log2` are not modelled. Weights are exact reals and the logarithm is a parameter. Rounding (a renormalised distribution that sums to 0.9999999) is therefore not captured.
- `Text.Lower`: folds only the ASCII letters A–Z, while Python's `lower()` folds all of Unicode.
- `Engine.PriorSumsToOne`: requires distinct player names. With duplicate names the initial dictionary has fewer keys than players, and its weights sum to less than one. The update lemmas (`Update.CarriedWeight`, `Update.UpdatedWeight`) handle duplicates the way the dictionary does: the last player of a name decides its weight.
- `Engine.Play`: the elimination facts hold for any pair of moves satisfying `Moves.Eliminates`. For the engine's own moves this is established by `Engine.EngineMovesEliminate`.

=== FILE: agreement.dfy ===
/**
 * A question on which every remaining candidate agrees carries no
 * information: when all players that still have weight fall in one group of
 * `information_gain`, that group's weighted entropy is the entropy of the
 * whole belief state and the gain is zero.
 */
module Agreement {
  import opened Wrappers
  import opened Seqs
  import opened Reals
  import opened Catalogue
  import opened Belief
  import opened Information
  import opened Scoring
  import opened Update

  /** `[state.get(n, 0) for n in ns]`. */
  function WeightsOf(ns: seq<string>, s: State): (ws: seq<real>)
    ensures |ws| == |ns|
  {
    Map(n => s.Get(n), ns)
  }

  /** `[n for n in ns if state.get(n, 0) > 0]`. */
  function LiveOf(ns: seq<string>, s: State): seq<string>
    decreases |ns|
  {
    if ns == [] then []
    else
      var n := ns[|ns| - 1];
      LiveOf(ns[..|ns| - 1], s) + (if s.Get(n) > 0.0 then [n] else [])
  }

  /** The live names of `ns` are those of its names that have positive weight; none repeats if `ns` has no repetitions. */
  lemma {:induction false} LiveOfMeaning(ns: seq<string>, s: State)
    ensures forall n :: n in LiveOf(ns, s) <==> n in ns && s.Get(n) > 0.0
    ensures Distinct(ns) ==> Distinct(LiveOf(ns, s))
    decreases |ns|
  {
    if ns != [] {
      var init := ns[..|ns| - 1];
      assert ns == init + [ns[|ns| - 1]];
      LiveOfMeaning(init, s);
      assert Distinct(ns) ==> Distinct(init);
    }
  }

  lemma {:induction false} WeightsOfInit(ns: seq<string>, s: State)
    requires ns != []
    ensures WeightsOf(ns, s)[..|ns| - 1] == WeightsOf(ns[..|ns| - 1], s)
    ensures WeightsOf(ns, s)[|ns| - 1] == s.Get(ns[|ns| - 1])
  {
  }

  /** Filtering the weights for positive ones is weighing the live names. */
  lemma {:induction false} PositiveWeights(ns: seq<string>, s: State)
    ensures Positives(WeightsOf(ns, s)) == WeightsOf(LiveOf(ns, s), s)
    decreases |ns|
  {
    if ns != [] {
      var n := ns[|ns| - 1];
      var init := ns[..|ns| - 1];
      WeightsOfInit(ns, s);
      PositiveWeights(init, s);
      MapConcat(n => s.Get(n), LiveOf(init, s), if s.Get(n) > 0.0 then [n] else []);
    }
  }

  /** A group's probabilities are the weights of its live names, each divided by the group weight. */
  lemma {:induction false} GroupProbsMeaning(ns: seq<string>, s: State, gw: real)
    requires gw != 0.0
    ensures GroupProbs(ns, s, gw) == Map(w => w / gw, WeightsOf(LiveOf(ns, s), s))
    decreases |ns|
  {
    if ns != [] {
      var n := ns[|ns| - 1];
      var init := ns[..|ns| - 1];
      var tail := if s.Get(n) > 0.0 then [n] else [];
      GroupProbsMeaning(init, s, gw);
      MapConcat(n => s.Get(n), LiveOf(init, s), tail);
      MapConcat(w => w / gw, WeightsOf(LiveOf(init, s), s), WeightsOf(tail, s));
    }
  }

  /** Against a group weight of one, the group's probabilities are the weights of its live names. */
  lemma GroupProbsAtOne(ns: seq<string>, s: State)
    ensures GroupProbs(ns, s, 1.0) == WeightsOf(LiveOf(ns, s), s)
  {
    GroupProbsMeaning(ns, s, 1.0);
  }

  /** With no negative weights, the names at zero add nothing to a sum of weights. */
  lemma {:induction false} SumOfLive(ns: seq<string>, s: State)
    requires s.NonNegative()
    ensures Sum(WeightsOf(ns, s)) == Sum(WeightsOf(LiveOf(ns, s), s))
    decreases |ns|
  {
    if ns != [] {
      var n := ns[|ns| - 1];
      var init := ns[..|ns| - 1];
      WeightsOfInit(ns, s);
      SumOfLive(init, s);
      assert s.Get(n) >= 0.0 by {
        if n in s.weight {
          assert s.Get(n) == s.weight[n];
        }
      }
      MapConcat(n => s.Get(n), LiveOf(init, s), if s.Get(n) > 0.0 then [n] else []);
      SumConcat(WeightsOf(LiveOf(init, s), s), WeightsOf(if s.Get(n) > 0.0 then [n] else [], s));
      assert Sum([s.Get(n)]) == s.Get(n) by {
        assert [s.Get(n)][..0] == [];
      }
    }
  }

  /** A group weight is the sum of the group's weights. */
  lemma GroupWeightIsSum(ns: seq<string>, s: State)
    ensures GroupWeight(ns, s) == Sum(WeightsOf(ns, s))
  {
    assert WeightsOf(ns, s) == seq(|ns|, i requires 0 <= i < |ns| => s.Get(ns[i]));
  }

  /** A group of positive weight has probabilities that sum to one. */
  lemma GroupProbsSumToOne(ns: seq<string>, s: State)
    requires s.NonNegative() && GroupWeight(ns, s) > 0.0
    ensures Sum(GroupProbs(ns, s, GroupWeight(ns, s))) == 1.0
  {
    var gw := GroupWeight(ns, s);
    var live := WeightsOf(LiveOf(ns, s), s);
    GroupProbsMeaning(ns, s, gw);
    SumDividedBy(live, Map(w => w / gw, live), gw);
    SumOfLive(ns, s);
    GroupWeightIsSum(ns, s);
    SelfQuotient(gw);
  }

  /** A group lists a name exactly when one of the first `n` players has that name and is keyed to the group. */
  lemma {:induction false} NamesKeyedMeaning(players: seq<Player>, attr: string, k: string, n: nat)
    requires n <= |players|
    ensures forall x :: x in NamesKeyed(players, attr, k, n) <==>
      exists i | 0 <= i < n :: players[i].name == x && GroupKey(players[i], attr) == Some(k)
  {
    if n > 0 {
      NamesKeyedMeaning(players, attr, k, n - 1);
    }
  }

  /** With distinct player names, no group lists a name twice. */
  lemma {:induction false} NamesKeyedDistinct(players: seq<Player>, attr: string, k: string, n: nat)
    requires n <= |players| && DistinctNames(players)
    ensures Distinct(NamesKeyed(players, attr, k, n))
  {
    if n > 0 {
      var prev := NamesKeyed(players, attr, k, n - 1);
      var x := players[n - 1].name;
      NamesKeyedDistinct(players, attr, k, n - 1);
      NamesKeyedMeaning(players, attr, k, n - 1);
      assert forall i | 0 <= i < n - 1 :: players[i].name != x;
      assert x !in prev;
      assert Distinct(prev + [x]);
    }
  }

  /** When every group but the one at position `at` contributes nothing, the weighted entropy is that group's contribution. */
  lemma {:induction false} WeightedOneGroup(g: Groups, state: State, total: real, log2: real -> real, at: nat, j: nat)
    requires g.Indexed() && at < |g.keys| && j <= |g.keys|
    requires forall i | 0 <= i < |g.keys| && i != at :: Contribution(g.members[g.keys[i]], state, total, log2) == 0.0
    ensures WeightedUpTo(g, state, total, log2, j) ==
      if at < j then Contribution(g.members[g.keys[at]], state, total, log2) else 0.0
  {
    if j > 0 {
      WeightedOneGroup(g, state, total, log2, at, j - 1);
    }
  }

  /** Every player that still has weight holds `attr`, and all of them are grouped under one key. */
  ghost predicate LiveAgree(players: seq<Player>, state: State, attr: string)
  {
    && (forall i | 0 <= i < |players| && state.Get(players[i].name) > 0.0 :: attr in players[i].attrs)
    && (forall i, j | 0 <= i < |players| && 0 <= j < |players| && state.Get(players[i].name) > 0.0 && state.Get(players[j].name) > 0.0 ::
          GroupKey(players[i], attr) == GroupKey(players[j], attr))
  }

  /** Every key of the state is the name of a catalogue player. */
  ghost predicate OverCatalogue(players: seq<Player>, state: State)
  {
    forall n | n in state.weight :: Listed(players, n, |players|)
  }

  /** A state with a positive total over catalogue players has a live catalogue player. */
  lemma SomeLivePlayer(players: seq<Player>, state: State) returns (p: nat)
    requires state.Valid() && state.NonNegative() && state.Total() != 0.0
    requires OverCatalogue(players, state)
    ensures p < |players| && state.Get(players[p].name) > 0.0
  {
    assert exists m | 0 <= m < |state.names| :: state.Get(state.names[m]) != 0.0 by {
      if forall m | 0 <= m < |state.names| :: state.Get(state.names[m]) == 0.0 {
        DeadStateTotal(state);
      }
    }
    var m :| 0 <= m < |state.names| && state.Get(state.names[m]) != 0.0;
    var live := state.names[m];
    assert live in state.weight && state.Get(live) > 0.0;
    assert Listed(players, live, |players|);
    p :| 0 <= p < |players| && players[p].name == live;
  }

  /** A group keyed other than the live players holds only names at weight zero, and so contributes nothing. */
  lemma DeadGroup(players: seq<Player>, state: State, attr: string, live: nat, k: string, log2: real -> real)
    requires state.NonNegative() && LiveAgree(players, state, attr)
    requires live < |players| && state.Get(players[live].name) > 0.0
    requires GroupKey(players[live], attr) != Some(k)
    ensures Contribution(NamesKeyed(players, attr, k, |players|), state, 1.0, log2) == 0.0
  {
    var names := NamesKeyed(players, attr, k, |players|);
    NamesKeyedMeaning(players, attr, k, |players|);
    forall t | 0 <= t < |names| ensures state.Get(names[t]) == 0.0 {
      var x := names[t];
      assert x in names;
      var q :| 0 <= q < |players| && players[q].name == x && GroupKey(players[q], attr) == Some(k);
      if x in state.weight {
        assert state.Get(x) == state.weight[x] >= 0.0;
      }
    }
    SumOfZeros(seq(|names|, t requires 0 <= t < |names| => state.Get(names[t])));
  }

  /** The group keyed like the live players has exactly the live names of the state. */
  lemma LiveGroupNames(players: seq<Player>, state: State, attr: string, live: nat)
    requires state.Valid() && DistinctNames(players)
    requires OverCatalogue(players, state) && LiveAgree(players, state, attr)
    requires live < |players| && state.Get(players[live].name) > 0.0
    ensures multiset(LiveOf(NamesKeyed(players, attr, GroupKey(players[live], attr).value, |players|), state))
         == multiset(LiveOf(state.names, state))
  {
    var key := GroupKey(players[live], attr).value;
    var group := NamesKeyed(players, attr, key, |players|);
    NamesKeyedMeaning(players, attr, key, |players|);
    NamesKeyedDistinct(players, attr, key, |players|);
    LiveOfMeaning(group, state);
    LiveOfMeaning(state.names, state);
    var liveInGroup, liveInState := LiveOf(group, state), LiveOf(state.names, state);
    forall x ensures x in liveInGroup <==> x in liveInState {
      if state.Get(x) > 0.0 {
        assert x in state.weight;
        assert Listed(players, x, |players|);
        var q :| 0 <= q < |players| && players[q].name == x;
        assert GroupKey(players[q], attr) == Some(key);
      }
    }
    assert Distinct(state.names);
    DistinctSameElements(liveInGroup, liveInState);
  }

  /** Names whose live part is that of the state weigh the whole total. */
  lemma WholeWeight(names: seq<string>, state: State)
    requires state.Valid() && state.NonNegative()
    requires multiset(LiveOf(names, state)) == multiset(LiveOf(state.names, state))
    ensures GroupWeight(names, state) == state.Total()
  {
    var liveInNames, liveInState := LiveOf(names, state), LiveOf(state.names, state);
    MapMultiset(n => state.Get(n), liveInNames, liveInState);
    assert state.Values() == WeightsOf(state.names, state);
    GroupWeightIsSum(names, state);
    SumOfLive(names, state);
    SumOfLive(state.names, state);
    SumPermutation(WeightsOf(liveInNames, state), WeightsOf(liveInState, state));
  }

  /** Against a whole of one, names whose live part is that of the state have the state's entropy. */
  lemma WholeEntropy(names: seq<string>, state: State, log2: real -> real)
    requires multiset(LiveOf(names, state)) == multiset(LiveOf(state.names, state))
    ensures Entropy(GroupProbs(names, state, 1.0), log2) == Entropy(state.Values(), log2)
  {
    var liveInNames, liveInState := LiveOf(names, state), LiveOf(state.names, state);
    MapMultiset(n => state.Get(n), liveInNames, liveInState);
    assert state.Values() == WeightsOf(state.names, state);
    GroupProbsAtOne(names, state);
    PositiveWeights(state.names, state);
    PositivesMeaning(state.Values());
    EntropyPermutation(WeightsOf(liveInNames, state), state.Values(), log2);
  }

  /** A group holding every live name of a distribution contributes the entropy of the whole distribution. */
  lemma WholeContribution(names: seq<string>, state: State, log2: real -> real)
    requires state.Valid() && state.NonNegative() && state.Total() == 1.0
    requires multiset(LiveOf(names, state)) == multiset(LiveOf(state.names, state))
    ensures Contribution(names, state, 1.0, log2) == Entropy(state.Values(), log2)
  {
    WholeWeight(names, state);
    WholeEntropy(names, state, log2);
  }

  /**
   * Asking about an attribute on which all live candidates agree gains
   * nothing, whatever the eliminated players hold: for a distribution over
   * catalogue players, the one group with weight carries all of it.
   */
  lemma LiveAgreementHasNoGain(players: seq<Player>, state: State, attr: string, log2: real -> real)
    requires state.Valid() && state.NonNegative() && state.Total() == 1.0
    requires DistinctNames(players) && OverCatalogue(players, state)
    requires LiveAgree(players, state, attr)
    ensures Gain(players, state, attr, log2) == 0.0
  {
    var live := SomeLivePlayer(players, state);
    var key := GroupKey(players[live], attr).value;
    var g := GroupsOf(players, attr);
    if |g.keys| > 1 {
      GroupsUpToKeys(players, attr, |players|);
      GroupsUpToMembers(players, attr, |players|);
      assert KeyedBefore(players, attr, key, |players|);
      var at :| 0 <= at < |g.keys| && g.keys[at] == key;
      forall i | 0 <= i < |g.keys| && i != at
        ensures Contribution(g.members[g.keys[i]], state, 1.0, log2) == 0.0
      {
        DeadGroup(players, state, attr, live, g.keys[i], log2);
      }
      WeightedOneGroup(g, state, 1.0, log2, at, |g.keys|);
      LiveGroupNames(players, state, attr, live);
      WholeContribution(g.members[key], state, log2);
    }
  }
}

=== FILE: belief.dfy ===
/**
 * The belief state: a Python dictionary from player name to weight. Python
 * dictionaries remember insertion order, and the engine depends on it (`max`
 * and `next` over the state return the first qualifying name), so the state
 * is kept as its list of keys in insertion order plus the weights.
 */
module Belief {
  import opened Wrappers
  import opened Reals

  datatype State = State(names: seq<string>, weight: map<string, real>) {

    /** The keys are distinct and are exactly the names that carry a weight. */
    ghost predicate Valid()
    {
      && (forall i, j | 0 <= i < j < |names| :: names[i] != names[j])
      && (forall n :: n in weight <==> n in names)
    }

    /** `state.get(n, 0)`. */
    function Get(n: string): real
    {
      if n in weight then weight[n] else 0.0
    }

    /** `list(state.values())`. */
    function Values(): (v: seq<real>)
      ensures |v| == |names|
      ensures forall i | 0 <= i < |names| :: v[i] == Get(names[i])
    {
      seq(|names|, i requires 0 <= i < |names| => Get(names[i]))
    }

    /** `sum(state.values())`. */
    function Total(): real
    {
      Sum(Values())
    }

    predicate NonNegative()
    {
      forall n | n in weight :: weight[n] >= 0.0
    }

    /** `state[n] = w`: a new key goes last, an existing key keeps its place. */
    function Put(n: string, w: real): (r: State)
      requires Valid()
      ensures r.Valid()
      ensures r.Get(n) == w
      ensures forall m | m != n :: r.Get(m) == Get(m)
      ensures forall m :: m in r.weight <==> m in weight || m == n
      ensures r.names == if n in weight then names else names + [n]
    {
      State(if n in weight then names else names + [n], weight[n := w])
    }

    /** `for name in state: state[name] /= t`. */
    function DividedBy(t: real): (r: State)
      requires Valid() && t != 0.0
      ensures r.Valid() && r.names == names
      ensures forall n :: r.Get(n) == Get(n) / t
    {
      State(names, map n | n in weight :: weight[n] / t)
    }

    /** `sum(1 for prob in state.values() if prob > 0)`. */
    function LiveCount(): (c: nat)
      ensures c == |set i: nat | i < |names| && Get(names[i]) > 0.0|
      ensures c <= |names|
      ensures c == 0 <==> forall i | 0 <= i < |names| :: Get(names[i]) <= 0.0
    {
      assert PositiveIndices(Values()) == set i: nat | i < |names| && Get(names[i]) > 0.0;
      CountPositive(Values())
    }

    /** `next(name for name, prob in state.items() if prob > 0)`. */
    function FirstLive(): (n: string)
      requires LiveCount() > 0
      ensures n in names && Get(n) > 0.0
    {
      names[FirstPositive(Values())]
    }

    /** `max(state, key=state.get, default=None)`. */
    function Top(): (r: Option<string>)
      ensures r.None? <==> names == []
      ensures r.Some? ==> r.value in names
    {
      if names == [] then None else Some(names[FirstMaxIndex(Values())])
    }

    /** `state.get(best, 0) if best else 0`, where `best` is `Top()`; an empty name is falsy. */
    function Confidence(): (c: real)
      ensures Top().Some? && Top().value != "" ==>
        exists i | 0 <= i < |names| :: names[i] == Top().value && Get(names[i]) == c
      ensures Top().Some? && Top().value != "" ==> forall i | 0 <= i < |names| :: Get(names[i]) <= c
      ensures Top().None? || Top().value == "" ==> c == 0.0
    {
      match Top()
      case None => 0.0
      case Some(n) => if n == "" then 0.0 else Get(n)
    }
  }

  /** Dividing every weight by the total leaves a distribution that sums to one. */
  lemma DividedByTotal(s: State)
    requires s.Valid() && s.Total() != 0.0
    ensures s.DividedBy(s.Total()).Total() == 1.0
  {
    var t := s.Total();
    var r := s.DividedBy(t);
    assert forall i | 0 <= i < |s.names| :: r.Values()[i] == s.Values()[i] / t;
    SumDividedBy(s.Values(), r.Values(), t);
    assert r.Total() == t / t;
    SelfQuotient(t);
  }

  /**
   * `max` over the keys by weight: the top key weighs at least as much as
   * every key, and strictly more than every key inserted before it.
   */
  lemma TopIsFirstMaximum(s: State)
    requires s.Top().Some?
    ensures forall n | n in s.names :: s.Get(n) <= s.Get(s.Top().value)
    ensures exists k | 0 <= k < |s.names| ::
      s.names[k] == s.Top().value && forall j | 0 <= j < k :: s.Get(s.names[j]) < s.Get(s.Top().value)
  {
    var k := FirstMaxIndex(s.Values());
    forall n | n in s.names ensures s.Get(n) <= s.Get(s.Top().value) {
      var j :| 0 <= j < |s.names| && s.names[j] == n;
      assert s.Values()[j] <= s.Values()[k];
    }
  }

  /** With exactly one live key, every key but the first live one has weight zero or less. */
  lemma OnlyLive(s: State)
    requires s.LiveCount() == 1
    ensures forall n | n in s.names && n != s.FirstLive() :: s.Get(n) <= 0.0
  {
    var xs := s.Values();
    var k := FirstPositive(xs);
    SingleLive(xs, k);
    forall n | n in s.names && n != s.FirstLive() ensures s.Get(n) <= 0.0 {
      var j :| 0 <= j < |s.names| && s.names[j] == n;
      assert xs[j] == s.Get(n);
    }
  }

  /** Exactly one live key: it is the first live one, and every other key is dead. */
  lemma {:induction false} SingleLive(xs: seq<real>, k: nat)
    requires CountPositive(xs) == 1 && k < |xs| && xs[k] > 0.0
    ensures forall j | 0 <= j < |xs| && j != k :: xs[j] <= 0.0
  {
    var n := |xs| - 1;
    if k < n {
      SingleLive(xs[..n], k);
      assert xs[..n][k] > 0.0;
    } else {
      assert CountPositive(xs[..n]) == 0;
      assert forall j | 0 <= j < n :: xs[..n][j] <= 0.0;
    }
  }
}

=== FILE: catalogue.dfy ===
/**
 * The player catalogue the engine reads: one record per player, a name and
 * a value per attribute. Catalogue loading (the CSV reader) is not part of
 * this model; a catalogue is simply a sequence of records.
 */
module Catalogue {

  /** An attribute value as the catalogue holds it: a Python `bool` or `str`. */
  datatype Value = Flag(b: bool) | Word(s: string)

  /** A player record: its `name` and its attribute dictionary. */
  datatype Player = Player(name: string, attrs: map<string, Value>)

  /** The attributes questions are asked about, in the order they are scored. */
  const ATTRIBUTES: seq<string> :=
    ["club", "position", "nationality", "retired", "ballon_dor", "champions_league"]

  /** The attributes answered by yes or no. */
  const BOOLEAN_ATTRIBUTES: seq<string> := ["retired", "ballon_dor", "champions_league"]

  /** Six distinct attributes are scored; the last three are the yes/no ones and the first three are not. */
  lemma Schema()
    ensures |ATTRIBUTES| == 6
    ensures forall i, j | 0 <= i < j < |ATTRIBUTES| :: ATTRIBUTES[i] != ATTRIBUTES[j]
    ensures forall i | 0 <= i < |ATTRIBUTES| :: IsBooleanAttribute(ATTRIBUTES[i]) <==> i >= 3
    ensures forall a | IsBooleanAttribute(a) :: a in ATTRIBUTES
  {
  }

  predicate IsBooleanAttribute(attr: string)
  {
    attr in BOOLEAN_ATTRIBUTES
  }

  /** Python's `bool(v)`: a string is true when it is not empty. */
  function Truthy(v: Value): bool
  {
    match v
    case Flag(b) => b
    case Word(s) => s != []
  }

  /** Python's `str(v)`. */
  function Show(v: Value): string
  {
    match v
    case Flag(b) => if b then "True" else "False"
    case Word(s) => s
  }

  /** No two players share a name. */
  predicate DistinctNames(players: seq<Player>)
  {
    forall i, j | 0 <= i < j < |players| :: players[i].name != players[j].name
  }

  /** Every player defines `attr`. */
  predicate Defines(players: seq<Player>, attr: string)
  {
    forall i | 0 <= i < |players| :: attr in players[i].attrs
  }

  /** Every player defines every attribute of the schema, as the loader guarantees. */
  predicate Complete(players: seq<Player>)
  {
    forall j | 0 <= j < |ATTRIBUTES| :: Defines(players, ATTRIBUTES[j])
  }
}

=== FILE: engine.dfy ===
/**
 * The game loop: start from a uniform belief over the catalogue, then ask the
 * best question, read the answer and update the belief, until no player or a
 * single player is left, no question helps, one player is more than 95%
 * likely, or 20 questions have been asked. The user's answers are a sequence
 * given in advance; running out of them ends the game.
 */
module Engine {
  import opened Wrappers
  import opened Reals
  import opened Text
  import opened Catalogue
  import opened Belief
  import opened Selection
  import opened Update

  /** `max_questions`. */
  const MAX_QUESTIONS: nat := 20

  /** The top weight above which the engine announces its guess. */
  const CONFIDENCE_THRESHOLD: real := 0.95

  /** Why a game ended. */
  datatype Stop =
    | NoCatalogue                                 // no player could be loaded
    | NoMatch                                     // no player has positive weight left
    | Identified(winner: string)                  // exactly one player has positive weight left
    | Stuck                                       // `best_question` found nothing to ask
    | Confident(guess: string, confidence: real)  // the top weight went above the threshold
    | Budget                                      // the question budget is spent
    | OutOfAnswers                                // the user gave no further answer

  /** The end of a game: why it stopped, the belief then, and the questions asked. */
  datatype Game = Game(stop: Stop, state: State, asked: nat, questions: seq<Question>)

  /** `{p["name"]: 1.0 / len(players) for p in players}`, over the first `n` players. */
  function Prior(players: seq<Player>, n: nat): State
    requires n <= |players|
  {
    if n == 0 then State([], map[])
    else
      var s := Prior(players, n - 1);
      var name := players[n - 1].name;
      State(if name in s.weight then s.names else s.names + [name], s.weight[name := 1.0 / |players| as real])
  }

  /** The prior is a well-formed ordered dictionary. */
  lemma {:induction false} PriorValid(players: seq<Player>, n: nat)
    requires n <= |players|
    ensures Prior(players, n).Valid()
  {
    if n > 0 {
      PriorValid(players, n - 1);
      var s := Prior(players, n - 1);
      assert Prior(players, n) == s.Put(players[n - 1].name, 1.0 / |players| as real);
    }
  }

  /** Every listed player starts at `1 / len(players)`, and nobody else has a weight. */
  lemma {:induction false} PriorWeights(players: seq<Player>, n: nat)
    requires n <= |players|
    ensures forall name :: name in Prior(players, n).weight <==> Listed(players, name, n)
    ensures forall name :: Prior(players, n).Get(name) == if Listed(players, name, n) then 1.0 / |players| as real else 0.0
  {
    if n > 0 {
      PriorWeights(players, n - 1);
      forall name ensures Listed(players, name, n) <==> Listed(players, name, n - 1) || players[n - 1].name == name {
        if Listed(players, name, n - 1) {
          var i :| 0 <= i < n - 1 && players[i].name == name;
          assert players[i].name == name;
        }
      }
    }
  }

  /** With distinct names the prior lists the players in catalogue order. */
  lemma {:induction false} PriorNames(players: seq<Player>, n: nat)
    requires n <= |players| && DistinctNames(players)
    ensures |Prior(players, n).names| == n
    ensures forall k | 0 <= k < n :: Prior(players, n).names[k] == players[k].name
  {
    if n > 0 {
      PriorNames(players, n - 1);
      PriorWeights(players, n - 1);
    }
  }

  /** With distinct names the uniform prior is a distribution: it sums to one. */
  lemma PriorSumsToOne(players: seq<Player>)
    requires |players| > 0 && DistinctNames(players)
    ensures Prior(players, |players|).Total() == 1.0
  {
    var s := Prior(players, |players|);
    var share := 1.0 / |players| as real;
    PriorNames(players, |players|);
    PriorValid(players, |players|);
    PriorWeights(players, |players|);
    forall k | 0 <= k < |s.names| ensures s.Values()[k] == share {
      assert s.names[k] in s.weight;
    }
    SumOfConstant(s.Values(), share);
    EqualShares(|players|);
  }

  /**
   * The answer handed to `update_state`: for a yes/no question the reply
   * `"yes"` becomes `True` and any other reply `False`; otherwise the reply
   * text itself.
   */
  function AnswerValue(attr: string, reply: string): Value
  {
    if IsBooleanAttribute(attr) then Flag(reply == "yes") else Word(reply)
  }

  /**
   * Which players a reply keeps: on a yes/no question `"yes"` keeps the
   * players whose value is truthy and any other reply the others; on any
   * other question the reply keeps the players whose value it spells up to
   * the case of A to Z.
   */
  lemma AnswerValueMatches(p: Player, attr: string, reply: string)
    requires attr in p.attrs
    ensures IsBooleanAttribute(attr) ==>
      (Matches(p, attr, AnswerValue(attr, reply)) <==> (Truthy(p.attrs[attr]) <==> reply == "yes"))
    ensures !IsBooleanAttribute(attr) ==>
      (Matches(p, attr, AnswerValue(attr, reply)) <==> SameIgnoringCase(Show(p.attrs[attr]), reply))
  {
    if !IsBooleanAttribute(attr) {
      TextAnswerIgnoresCase(p, attr, Word(reply));
    }
  }

  /**
   * The two moves of a round: choosing a question for the current belief
   * (`best_question`), and the belief after the reply to it (`update_state`).
   */
  datatype Moves = Moves(choose: State -> Option<Question>, update: (State, Question, string) --> State)
  {
    /** Whatever question is chosen, any reply to it can be applied. */
    ghost predicate Valid()
    {
      forall s: State, q: Question, reply: string | choose(s) == Some(q) :: update.requires(s, q, reply)
    }

    /**
     * Monotonic elimination, one update at a time: from non-negative weights
     * the update keeps them non-negative, adds no name, keeps every zero at
     * zero, and leaves a distribution or an all-zero belief.
     */
    ghost predicate Eliminates()
      requires Valid()
    {
      forall s: State, q: Question, reply: string | choose(s) == Some(q) && s.NonNegative() ::
        Narrows(s, update(s, q, reply))
    }
  }

  /**
   * `next` keeps the weights of `s` non-negative, adds no name, keeps every
   * zero at zero, and is a distribution or all zero.
   */
  ghost predicate Narrows(s: State, next: State)
  {
    && next.NonNegative()
    && next.weight.Keys <= s.weight.Keys
    && (forall name | s.Get(name) == 0.0 :: next.Get(name) == 0.0)
    && (next.Total() == 1.0 || forall name :: next.Get(name) == 0.0)
  }

  /** The engine's own moves: `best_question` and `update_state` over the catalogue. */
  function EngineMoves(players: seq<Player>, log2: real -> real): (m: Moves)
    requires Complete(players)
    ensures m.Valid()
    ensures forall s :: m.choose(s) == SelectQuestion(players, s, log2)
    ensures forall s: State, q: Question, reply: string | Defines(players, q.attr) :: m.update.requires(s, q, reply)
    ensures forall s: State, q: Question, reply: string | Defines(players, q.attr) ::
      m.update(s, q, reply) == Updated(players, s, q.attr, AnswerValue(q.attr, reply))
  {
    Moves(s => SelectQuestion(players, s, log2),
          (s: State, q: Question, reply: string) requires Defines(players, q.attr) =>
            Updated(players, s, q.attr, AnswerValue(q.attr, reply)))
  }

  /** The engine's update eliminates monotonically. */
  lemma EngineMovesEliminate(players: seq<Player>, log2: real -> real)
    requires Complete(players)
    ensures EngineMoves(players, log2).Eliminates()
  {
    var m := EngineMoves(players, log2);
    forall s: State, q: Question, reply: string | m.choose(s) == Some(q) && s.NonNegative()
      ensures Narrows(s, m.update(s, q, reply))
    {
      assert SelectQuestion(players, s, log2) == Some(q);
      var answer := AnswerValue(q.attr, reply);
      var next := Updated(players, s, q.attr, answer);
      assert m.update(s, q, reply) == next;
      UpdatedIsDistributionOrDead(players, s, q.attr, answer);
      UpdatedKeys(players, s, q.attr, answer);
      forall name | s.Get(name) == 0.0 ensures next.Get(name) == 0.0 {
        UpdateKeepsDeadDead(players, s, q.attr, answer, name);
      }
      forall name | name in next.weight ensures name in s.weight {
        assert s.Get(name) != 0.0;
      }
    }
  }

  /**
   * Each round asks exactly one question and consumes exactly one reply, the
   * budget caps the rounds, and a game that asks nothing more ends on the
   * belief it started from.
   */
  ghost predicate Counted(replies: seq<string>, state: State, asked: nat, questions: seq<Question>, g: Game)
  {
    && asked <= g.asked <= MAX_QUESTIONS
    && (g.asked == asked || g.asked <= |replies|)
    && |g.questions| == |questions| + (g.asked - asked)
    && g.questions[..|questions|] == questions
    && (g.asked == asked ==> g.state == state)
  }

  /** What each way of stopping says about the final belief. */
  ghost predicate Explained(m: Moves, replies: seq<string>, asked: nat, g: Game)
  {
    && g.stop != NoCatalogue
    && (g.stop == Budget <==> g.asked == MAX_QUESTIONS && !g.stop.Confident?)
    && (g.stop == NoMatch ==> g.state.LiveCount() == 0)
    && (g.stop.Identified? ==> g.state.LiveCount() == 1 && g.stop.winner == g.state.FirstLive())
    && (g.stop == Stuck ==> g.state.LiveCount() > 1 && m.choose(g.state).None?)
    && (g.stop == OutOfAnswers ==> g.state.LiveCount() > 1 && g.asked >= |replies|)
    && (g.stop.Confident? ==>
          && g.asked > asked
          && g.stop.confidence == g.state.Confidence() > CONFIDENCE_THRESHOLD
          && g.state.Top() == Some(g.stop.guess))
  }

  /**
   * Monotonic elimination over the rest of a game: the final belief narrows
   * the starting one and, once a reply has been applied, is a distribution or
   * all zero.
   */
  ghost predicate Eliminated(state: State, asked: nat, g: Game)
  {
    && g.state.NonNegative()
    && g.state.weight.Keys <= state.weight.Keys
    && (forall name | state.Get(name) == 0.0 :: g.state.Get(name) == 0.0)
    && (g.asked > asked ==> g.state.Total() == 1.0 || forall name :: g.state.Get(name) == 0.0)
  }

  /**
   * The rest of the game from `state`, after `asked` questions and answers:
   * the first half of a round of the `while` loop, which stops on the budget
   * or when fewer than two players are left.
   */
  function Play(m: Moves, replies: seq<string>, state: State, asked: nat, questions: seq<Question>): (g: Game)
    requires m.Valid() && asked <= MAX_QUESTIONS
    ensures Counted(replies, state, asked, questions, g)
    ensures g.stop.Confident? ==> g.asked > asked
    ensures Explained(m, replies, asked, g)
    ensures m.Eliminates() && state.NonNegative() ==> Eliminated(state, asked, g)
    ensures asked < MAX_QUESTIONS && state.LiveCount() == 0 ==> g == Game(NoMatch, state, asked, questions)
    ensures asked < MAX_QUESTIONS && state.LiveCount() == 1 ==>
      g == Game(Identified(state.FirstLive()), state, asked, questions)
    decreases MAX_QUESTIONS - asked, 2
  {
    if asked == MAX_QUESTIONS then Game(Budget, state, asked, questions)
    else if state.LiveCount() == 0 then Game(NoMatch, state, asked, questions)
    else if state.LiveCount() == 1 then Game(Identified(state.FirstLive()), state, asked, questions)
    else Ask(m, replies, state, asked, questions)
  }

  /**
   * The second half of a round, with at least two players left: choose a
   * question and, when one is chosen and a reply is left, apply the reply.
   */
  function Ask(m: Moves, replies: seq<string>, state: State, asked: nat, questions: seq<Question>): (g: Game)
    requires m.Valid() && asked < MAX_QUESTIONS && state.LiveCount() > 1
    ensures Counted(replies, state, asked, questions, g)
    ensures g.stop.Confident? ==> g.asked > asked
    ensures Explained(m, replies, asked, g)
    ensures m.Eliminates() && state.NonNegative() ==> Eliminated(state, asked, g)
    ensures m.choose(state).None? ==> g == Game(Stuck, state, asked, questions)
    ensures m.choose(state).Some? && asked >= |replies| ==> g == Game(OutOfAnswers, state, asked, questions)
    ensures m.choose(state).Some? && asked < |replies| ==> g == Answer(m, replies, state, asked, questions, m.choose(state).value)
    decreases MAX_QUESTIONS - asked, 1
  {
    match m.choose(state)
    case None => Game(Stuck, state, asked, questions)
    case Some(q) =>
      if asked >= |replies| then Game(OutOfAnswers, state, asked, questions)
      else Answer(m, replies, state, asked, questions, q)
  }

  /**
   * The reply to the chosen question `q` is applied and counted; the game
   * stops on the updated belief exactly when its top weight is above the
   * threshold, and otherwise goes on to the next round.
   */
  function Answer(m: Moves, replies: seq<string>, state: State, asked: nat, questions: seq<Question>, q: Question): (g: Game)
    requires m.Valid() && asked < MAX_QUESTIONS && asked < |replies|
    requires state.LiveCount() > 1 && m.choose(state) == Some(q)
    ensures Counted(replies, state, asked, questions, g)
    ensures Explained(m, replies, asked, g)
    ensures m.Eliminates() && state.NonNegative() ==> Eliminated(state, asked, g)
    ensures var next := m.update(state, q, replies[asked]);
      && (next.Confidence() > CONFIDENCE_THRESHOLD ==>
            g == Game(Confident(next.Top().value, next.Confidence()), next, asked + 1, questions + [q]))
      && (next.Confidence() <= CONFIDENCE_THRESHOLD ==> g.asked > asked && g.questions[|questions|] == q)
    ensures g.stop.Confident? && g.asked == asked + 1 <==> m.update(state, q, replies[asked]).Confidence() > CONFIDENCE_THRESHOLD
    decreases MAX_QUESTIONS - asked, 0
  {
    var next := m.update(state, q, replies[asked]);
    if next.Confidence() > CONFIDENCE_THRESHOLD then
      Game(Confident(next.Top().value, next.Confidence()), next, asked + 1, questions + [q])
    else
      var g := Play(m, replies, next, asked + 1, questions + [q]);
      assert g.questions[..|questions| + 1] == questions + [q];
      assert g.questions[|questions|] == g.questions[..|questions| + 1][|questions|];
      assert g.questions[..|questions|] == (questions + [q])[..|questions|];
      g
  }
  /** Below the budget, with two or more players left, a round asks a question. */
  lemma PlayAsks(m: Moves, replies: seq<string>, state: State, asked: nat, questions: seq<Question>)
    requires m.Valid() && asked < MAX_QUESTIONS && state.LiveCount() > 1
    ensures Play(m, replies, state, asked, questions) == Ask(m, replies, state, asked, questions)
  {
  }

  /** When the reply leaves no top weight above the threshold, the next round starts from the updated belief. */
  lemma AnswerGoesOn(m: Moves, replies: seq<string>, state: State, asked: nat, questions: seq<Question>, q: Question)
    requires m.Valid() && asked < MAX_QUESTIONS && asked < |replies|
    requires state.LiveCount() > 1 && m.choose(state) == Some(q)
    requires m.update(state, q, replies[asked]).Confidence() <= CONFIDENCE_THRESHOLD
    ensures Answer(m, replies, state, asked, questions, q)
      == Play(m, replies, m.update(state, q, replies[asked]), asked + 1, questions + [q])
  {
  }


  /** `run_engine` on a loaded catalogue and the user's replies. */
  function Engine(players: seq<Player>, replies: seq<string>, log2: real -> real): Game
    requires Complete(players)
  {
    if players == [] then Game(NoCatalogue, State([], map[]), 0, [])
    else Play(EngineMoves(players, log2), replies, Prior(players, |players|), 0, [])
  }

  /**
   * A whole game: at most 20 questions, one per reply used, and every one
   * recorded; the catalogue is missing exactly when nothing was loaded; a
   * stuck game is one where `best_question` has nothing to offer.
   */
  lemma EngineCounts(players: seq<Player>, replies: seq<string>, log2: real -> real)
    requires Complete(players)
    ensures var g := Engine(players, replies, log2);
      && g.asked <= MAX_QUESTIONS
      && g.asked <= |replies|
      && |g.questions| == g.asked
      && (g.stop == NoCatalogue <==> players == [])
      && (g.stop == OutOfAnswers ==> g.asked == |replies|)
      && (g.stop == Stuck ==> SelectQuestion(players, g.state, log2).None?)
  {
    if players != [] {
      var m := EngineMoves(players, log2);
      var prior := Prior(players, |players|);
    }
  }

  /**
   * The final belief of a whole game only holds catalogue names, is
   * non-negative and, once a reply has been applied, is a distribution or all
   * zero.
   */
  lemma EngineBelief(players: seq<Player>, replies: seq<string>, log2: real -> real)
    requires Complete(players)
    ensures var g := Engine(players, replies, log2);
      && (forall name | name in g.state.weight :: Listed(players, name, |players|))
      && g.state.NonNegative()
      && (g.asked > 0 ==> g.state.Total() == 1.0 || forall name :: g.state.Get(name) == 0.0)
  {
    if players != [] {
      var m := EngineMoves(players, log2);
      var prior := Prior(players, |players|);
      PriorWeights(players, |players|);
      assert prior.NonNegative();
      EngineMovesEliminate(players, log2);
    }
  }

  /**
   * "Reached maximum number of questions!" is printed after the loop whenever
   * 20 questions were asked, which includes a confident guess on the 20th
   * answer as well as an exhausted budget.
   */
  lemma LimitNotice(players: seq<Player>, replies: seq<string>, log2: real -> real)
    requires Complete(players)
    ensures var g := Engine(players, replies, log2);
      g.asked >= MAX_QUESTIONS <==> g.stop == Budget || (g.stop.Confident? && g.asked == MAX_QUESTIONS)
  {
    if players != [] {
      var m := EngineMoves(players, log2);
      var prior := Prior(players, |players|);
    }
  }

  /**
   * The announced winner is the only player left: it has positive weight and
   * every other name of the final belief has none.
   */
  lemma IdentifiedIsSole(players: seq<Player>, replies: seq<string>, log2: real -> real)
    requires Complete(players)
    ensures var g := Engine(players, replies, log2);
      g.stop.Identified? ==>
        && g.stop.winner in g.state.names
        && g.state.Get(g.stop.winner) > 0.0
        && forall n | n in g.state.names && n != g.stop.winner :: g.state.Get(n) <= 0.0
  {
    var g := Engine(players, replies, log2);
    if players != [] {
      var m := EngineMoves(players, log2);
      var prior := Prior(players, |players|);
      if g.stop.Identified? {
        OnlyLive(g.state);
      }
    }
  }

  /** A one-player catalogue names its player at once, without a question. */
  lemma SinglePlayer(players: seq<Player>, replies: seq<string>, log2: real -> real)
    requires Complete(players) && |players| == 1
    ensures Engine(players, replies, log2).stop == Identified(players[0].name)
    ensures Engine(players, replies, log2).asked == 0
  {
    var prior := Prior(players, 1);
    assert Prior(players, 0) == State([], map[]);
    assert prior.names == [players[0].name];
    assert prior.Get(players[0].name) == 1.0;
    assert prior.Values() == [1.0];
    assert CountPositive([1.0]) == 1;
  }

  /** `run_engine`'s `while` loop over the catalogue and the user's replies. */
  method RunEngine(players: seq<Player>, replies: seq<string>, log2: real -> real) returns (g: Game)
    requires Complete(players)
    ensures g == Engine(players, replies, log2)
  {
    if players == [] {
      return Game(NoCatalogue, State([], map[]), 0, []);
    }
    var moves := EngineMoves(players, log2);
    var state := Prior(players, |players|);
    var asked := 0;
    var questions := [];
    while asked < MAX_QUESTIONS
      invariant asked <= MAX_QUESTIONS
      invariant Play(moves, replies, state, asked, questions) == Engine(players, replies, log2)
      decreases MAX_QUESTIONS - asked
    {
      var live := state.LiveCount();
      if live == 0 {
        return Game(NoMatch, state, asked, questions);
      } else if live == 1 {
        return Game(Identified(state.FirstLive()), state, asked, questions);
      }
      var q := BestQuestion(players, state, log2);
      if q.None? {
        return Game(Stuck, state, asked, questions);
      }
      if asked >= |replies| {
        return Game(OutOfAnswers, state, asked, questions);
      }
      var question := q.value;
      state := UpdateState(players, state, question.attr, AnswerValue(question.attr, replies[asked]));
      asked := asked + 1;
      questions := questions + [question];
      var confidence := state.Confidence();
      if confidence > CONFIDENCE_THRESHOLD {
        return Game(Confident(state.Top().value, confidence), state, asked, questions);
      }
    }
    return Game(Budget, state, asked, questions);
  }
}

=== FILE: entropy.dfy ===
/**
 * Shannon entropy of a list of weights, in bits. Dafny has no logarithm, so
 * the base-2 logarithm is a parameter: every property proved here holds for
 * whatever function stands in for `math.log2`.
 */
module Information {
  import opened Seqs
  import opened Reals

  /** `[p for p in probs if p > 0]`. */
  function Positives(probs: seq<real>): (r: seq<real>)
    ensures |r| <= |probs|
    ensures forall i | 0 <= i < |r| :: r[i] > 0.0
    decreases |probs|
  {
    if probs == [] then []
    else
      var init := probs[..|probs| - 1];
      var p := probs[|probs| - 1];
      if p > 0.0 then Positives(init) + [p] else Positives(init)
  }

  /** The filter keeps every positive entry, as often as it occurs, and nothing else. */
  lemma {:induction false} PositivesMeaning(probs: seq<real>)
    ensures forall x | x > 0.0 :: multiset(Positives(probs))[x] == multiset(probs)[x]
    ensures forall x | x <= 0.0 :: multiset(Positives(probs))[x] == 0
    decreases |probs|
  {
    if probs != [] {
      var init := probs[..|probs| - 1];
      assert probs == init + [probs[|probs| - 1]];
      PositivesMeaning(init);
    }
  }

  /** `sum(p * log2(p) for p in ps)`. */
  function SumPLogP(ps: seq<real>, log2: real -> real): real
    decreases |ps|
  {
    if ps == [] then 0.0
    else SumPLogP(ps[..|ps| - 1], log2) + Times(ps[|ps| - 1], log2(ps[|ps| - 1]))
  }

  /** `entropy(probs)`: zero unless at least two entries are positive. */
  function Entropy(probs: seq<real>, log2: real -> real): (h: real)
    ensures |Positives(probs)| <= 1 ==> h == 0.0
  {
    if probs == [] then 0.0
    else
      var valid := Positives(probs);
      if |valid| <= 1 then 0.0 else -SumPLogP(valid, log2)
  }

  lemma {:induction false} SumPLogPAtPositives(ps: seq<real>, f: real -> real, g: real -> real)
    requires forall i | 0 <= i < |ps| :: ps[i] > 0.0
    requires forall x | x > 0.0 :: f(x) == g(x)
    ensures SumPLogP(ps, f) == SumPLogP(ps, g)
    decreases |ps|
  {
    if ps != [] {
      SumPLogPAtPositives(ps[..|ps| - 1], f, g);
    }
  }

  /**
   * Non-positive entries never reach the logarithm: two stand-ins for `log2`
   * that agree on the positive reals give the same entropy.
   */
  lemma EntropyReadsLogOnlyAtPositives(probs: seq<real>, f: real -> real, g: real -> real)
    requires forall x | x > 0.0 :: f(x) == g(x)
    ensures Entropy(probs, f) == Entropy(probs, g)
  {
    SumPLogPAtPositives(Positives(probs), f, g);
  }

  lemma {:induction false} SumPLogPNonPositive(ps: seq<real>, log2: real -> real)
    requires forall i | 0 <= i < |ps| :: 0.0 < ps[i] <= 1.0
    requires forall x | 0.0 < x <= 1.0 :: log2(x) <= 0.0
    ensures SumPLogP(ps, log2) <= 0.0
    decreases |ps|
  {
    if ps != [] {
      var p := ps[|ps| - 1];
      SumPLogPNonPositive(ps[..|ps| - 1], log2);
      assert log2(p) <= 0.0;
      assert Times(p, log2(p)) <= 0.0;
    }
  }

  /**
   * Entropy of probabilities is non-negative for any logarithm that is
   * non-positive on (0, 1], as `log2` is.
   */
  lemma EntropyNonNegative(probs: seq<real>, log2: real -> real)
    requires forall i | 0 <= i < |probs| :: probs[i] <= 1.0
    requires forall x | 0.0 < x <= 1.0 :: log2(x) <= 0.0
    ensures Entropy(probs, log2) >= 0.0
  {
    var valid := Positives(probs);
    PositivesMeaning(probs);
    forall i | 0 <= i < |valid| ensures valid[i] <= 1.0 {
      assert multiset(valid)[valid[i]] > 0;
      assert valid[i] in probs;
    }
    SumPLogPNonPositive(valid, log2);
  }

  lemma {:induction false} SumPLogPNegative(ps: seq<real>, log2: real -> real)
    requires ps != []
    requires forall i | 0 <= i < |ps| :: 0.0 < ps[i] < 1.0
    requires forall x | 0.0 < x < 1.0 :: log2(x) < 0.0
    ensures SumPLogP(ps, log2) < 0.0
    decreases |ps|
  {
    var p := ps[|ps| - 1];
    assert log2(p) < 0.0;
    assert Times(p, log2(p)) < 0.0;
    if |ps| > 1 {
      SumPLogPNegative(ps[..|ps| - 1], log2);
    } else {
      assert ps[..0] == [];
    }
  }

  /**
   * With at least two positive entries, all below one, entropy is positive
   * for any logarithm that is negative on (0, 1), as `log2` is: together with
   * the ensures of `Entropy`, it is zero exactly when at most one entry is
   * positive.
   */
  lemma EntropyPositive(probs: seq<real>, log2: real -> real)
    requires forall i | 0 <= i < |probs| :: probs[i] < 1.0
    requires forall x | 0.0 < x < 1.0 :: log2(x) < 0.0
    requires |Positives(probs)| >= 2
    ensures Entropy(probs, log2) > 0.0
  {
    var valid := Positives(probs);
    PositivesMeaning(probs);
    forall i | 0 <= i < |valid| ensures valid[i] < 1.0 {
      assert multiset(valid)[valid[i]] > 0;
      assert valid[i] in probs;
    }
    SumPLogPNegative(valid, log2);
  }

  /** The accumulated sum is the plain sum of the terms `p * log2(p)`. */
  lemma {:induction false} SumPLogPIsSum(ps: seq<real>, log2: real -> real)
    ensures SumPLogP(ps, log2) == Sum(Map(p => Times(p, log2(p)), ps))
    decreases |ps|
  {
    if ps != [] {
      var n := |ps| - 1;
      var terms := Map(p => Times(p, log2(p)), ps);
      assert terms[..n] == Map(p => Times(p, log2(p)), ps[..n]);
      SumPLogPIsSum(ps[..n], log2);
    }
  }

  /**
   * Entropy depends only on how often each positive value occurs: neither the
   * order of the entries nor the zeros among them change it.
   */
  lemma EntropyPermutation(xs: seq<real>, ys: seq<real>, log2: real -> real)
    requires forall x | x > 0.0 :: multiset(xs)[x] == multiset(ys)[x]
    ensures Entropy(xs, log2) == Entropy(ys, log2)
  {
    var vx, vy := Positives(xs), Positives(ys);
    PositivesMeaning(xs);
    PositivesMeaning(ys);
    assert multiset(vx) == multiset(vy) by {
      forall x ensures multiset(vx)[x] == multiset(vy)[x] {
        if x > 0.0 {
          assert multiset(vx)[x] == multiset(xs)[x];
        }
      }
    }
    assert |vx| == |multiset(vx)| == |multiset(vy)| == |vy|;
    var t := p => Times(p, log2(p));
    MapMultiset(t, vx, vy);
    SumPermutation(Map(t, vx), Map(t, vy));
    SumPLogPIsSum(vx, log2);
    SumPLogPIsSum(vy, log2);
  }
}

=== FILE: gain.dfy ===
/**
 * Information gain of asking about one attribute: the entropy of the belief
 * state minus the weighted entropy left inside the groups of players that
 * share a value of that attribute, clamped at zero.
 */
module Scoring {
  import opened Wrappers
  import opened Reals
  import opened Catalogue
  import opened Belief
  import opened Information

  /** `value_groups`: the group keys in insertion order and the names collected under each. */
  datatype Groups = Groups(keys: seq<string>, members: map<string, seq<string>>) {
    ghost predicate Valid()
    {
      && (forall i, j | 0 <= i < j < |keys| :: keys[i] != keys[j])
      && (forall k :: k in members <==> k in keys)
    }

    /** Every key has its list of names. */
    predicate Indexed()
    {
      forall i | 0 <= i < |keys| :: keys[i] in members
    }
  }

  /**
   * The key a player is grouped under: nothing when it lacks the attribute,
   * `str(bool(v))` for a boolean attribute, `str(v)` otherwise.
   */
  function GroupKey(p: Player, attr: string): (r: Option<string>)
    ensures r.None? <==> attr !in p.attrs
    ensures r.Some? && IsBooleanAttribute(attr) ==>
      && (r.value == "True" <==> Truthy(p.attrs[attr]))
      && (r.value == "False" <==> !Truthy(p.attrs[attr]))
    ensures r.Some? && !IsBooleanAttribute(attr) ==> r.value == Show(p.attrs[attr])
  {
    if attr !in p.attrs then None
    else if IsBooleanAttribute(attr) then Some(Show(Flag(Truthy(p.attrs[attr]))))
    else Some(Show(p.attrs[attr]))
  }

  /** Reference definition of one group: the names, in catalogue order, of the first `n` players keyed `k`. */
  function NamesKeyed(players: seq<Player>, attr: string, k: string, n: nat): seq<string>
    requires n <= |players|
  {
    if n == 0 then []
    else
      NamesKeyed(players, attr, k, n - 1)
      + (if GroupKey(players[n - 1], attr) == Some(k) then [players[n - 1].name] else [])
  }

  /** `value_groups` after the first `n` players: `value_groups.setdefault(key, []).append(name)`. */
  function GroupsUpTo(players: seq<Player>, attr: string, n: nat): (g: Groups)
    requires n <= |players|
  {
    if n == 0 then Groups([], map[])
    else
      var g := GroupsUpTo(players, attr, n - 1);
      var name := players[n - 1].name;
      match GroupKey(players[n - 1], attr)
      case None => g
      case Some(key) =>
        if key in g.members then Groups(g.keys, g.members[key := g.members[key] + [name]])
        else Groups(g.keys + [key], g.members[key := [name]])
  }

  /** The groups have distinct keys, each with its list of names. */
  lemma {:induction false} GroupsUpToValid(players: seq<Player>, attr: string, n: nat)
    requires n <= |players|
    ensures GroupsUpTo(players, attr, n).Valid()
  {
    if n > 0 {
      GroupsUpToValid(players, attr, n - 1);
    }
  }

  /** A key some player among the first `n` is grouped under. */
  ghost predicate KeyedBefore(players: seq<Player>, attr: string, k: string, n: nat)
    requires n <= |players|
  {
    exists i | 0 <= i < n :: GroupKey(players[i], attr) == Some(k)
  }

  lemma {:induction false} NoNamesKeyed(players: seq<Player>, attr: string, k: string, n: nat)
    requires n <= |players| && !KeyedBefore(players, attr, k, n)
    ensures NamesKeyed(players, attr, k, n) == []
  {
    if n > 0 {
      NoNamesKeyed(players, attr, k, n - 1);
    }
  }

  /** The groups are exactly the keys the first `n` players are grouped under. */
  lemma {:induction false} GroupsUpToKeys(players: seq<Player>, attr: string, n: nat)
    requires n <= |players|
    ensures forall k :: k in GroupsUpTo(players, attr, n).members <==> KeyedBefore(players, attr, k, n)
  {
    if n > 0 {
      GroupsUpToKeys(players, attr, n - 1);
      forall k ensures k in GroupsUpTo(players, attr, n).members <==> KeyedBefore(players, attr, k, n) {
        if KeyedBefore(players, attr, k, n) && !KeyedBefore(players, attr, k, n - 1) {
          assert GroupKey(players[n - 1], attr) == Some(k);
        }
      }
    }
  }

  /** Each group lists, in catalogue order, the names of the players keyed to it. */
  lemma {:induction false} GroupsUpToMembers(players: seq<Player>, attr: string, n: nat)
    requires n <= |players|
    ensures forall k | k in GroupsUpTo(players, attr, n).members ::
      GroupsUpTo(players, attr, n).members[k] == NamesKeyed(players, attr, k, n)
  {
    if n > 0 {
      GroupsUpToMembers(players, attr, n - 1);
      var g := GroupsUpTo(players, attr, n - 1);
      match GroupKey(players[n - 1], attr)
      case None =>
      case Some(key) =>
        if key !in g.members {
          GroupsUpToKeys(players, attr, n - 1);
          NoNamesKeyed(players, attr, key, n - 1);
        }
    }
  }

  /** The groups over the whole catalogue, eliminated players included. */
  function GroupsOf(players: seq<Player>, attr: string): (g: Groups)
    ensures g.Valid() && g.Indexed()
  {
    GroupsUpToValid(players, attr, |players|);
    GroupsUpTo(players, attr, |players|)
  }

  /** All players that hold the attribute are grouped under one key. */
  ghost predicate SharedKey(players: seq<Player>, attr: string)
  {
    forall i, j | 0 <= i < |players| && 0 <= j < |players| && GroupKey(players[i], attr).Some? && GroupKey(players[j], attr).Some? ::
      GroupKey(players[i], attr) == GroupKey(players[j], attr)
  }

  /** At most one group exactly when all players that hold the attribute share one key. */
  lemma SingleGroup(players: seq<Player>, attr: string)
    ensures |GroupsOf(players, attr).keys| <= 1 <==> SharedKey(players, attr)
  {
    var g := GroupsOf(players, attr);
    GroupsUpToKeys(players, attr, |players|);
    if |g.keys| >= 2 {
      assert g.keys[0] != g.keys[1];
      assert g.keys[0] in g.members && g.keys[1] in g.members;
      assert KeyedBefore(players, attr, g.keys[0], |players|);
      assert KeyedBefore(players, attr, g.keys[1], |players|);
      var i :| 0 <= i < |players| && GroupKey(players[i], attr) == Some(g.keys[0]);
      var j :| 0 <= j < |players| && GroupKey(players[j], attr) == Some(g.keys[1]);
      assert !SharedKey(players, attr);
    } else {
      forall i, j | 0 <= i < |players| && 0 <= j < |players| && GroupKey(players[i], attr).Some? && GroupKey(players[j], attr).Some?
        ensures GroupKey(players[i], attr) == GroupKey(players[j], attr)
      {
        var ki, kj := GroupKey(players[i], attr).value, GroupKey(players[j], attr).value;
        assert KeyedBefore(players, attr, ki, |players|);
        assert KeyedBefore(players, attr, kj, |players|);
        assert ki in g.keys && kj in g.keys;
      }
    }
  }

  /** `sum(state.get(name, 0) for name in names)`. */
  function GroupWeight(names: seq<string>, state: State): real
  {
    Sum(seq(|names|, i requires 0 <= i < |names| => state.Get(names[i])))
  }

  /** `[state[name] / gw for name in names if state.get(name, 0) > 0]`. */
  function GroupProbs(names: seq<string>, state: State, gw: real): (r: seq<real>)
    requires gw != 0.0
    ensures |r| <= |names|
    ensures gw > 0.0 ==> forall i | 0 <= i < |r| :: r[i] > 0.0
    decreases |names|
  {
    if names == [] then []
    else
      var name := names[|names| - 1];
      GroupProbs(names[..|names| - 1], state, gw)
      + (if state.Get(name) > 0.0 then [state.Get(name) / gw] else [])
  }

  /** What one group adds to the weighted entropy; groups of weight zero add nothing. */
  function Contribution(names: seq<string>, state: State, total: real, log2: real -> real): real
  {
    var gw := GroupWeight(names, state);
    if gw == 0.0 || total == 0.0 then 0.0
    else
      var probs := GroupProbs(names, state, gw);
      if probs == [] then 0.0 else Times(gw / total, Entropy(probs, log2))
  }

  /** `weighted_entropy` after the first `j` groups. */
  function WeightedUpTo(g: Groups, state: State, total: real, log2: real -> real, j: nat): real
    requires g.Indexed() && j <= |g.keys|
  {
    if j == 0 then 0.0
    else WeightedUpTo(g, state, total, log2, j - 1) + Contribution(g.members[g.keys[j - 1]], state, total, log2)
  }

  /** `information_gain(players, state, attr)`. */
  function Gain(players: seq<Player>, state: State, attr: string, log2: real -> real): (g: real)
    ensures g >= 0.0
    ensures players == [] || state.names == [] || state.Total() == 0.0 ==> g == 0.0
    ensures |GroupsOf(players, attr).keys| <= 1 ==> g == 0.0
  {
    if players == [] || state.names == [] then 0.0
    else if state.Total() == 0.0 then 0.0
    else
      var base := Entropy(state.Values(), log2);
      var groups := GroupsOf(players, attr);
      if |groups.keys| <= 1 then 0.0
      else
        var weighted := WeightedUpTo(groups, state, state.Total(), log2, |groups.keys|);
        if 0.0 >= base - weighted then 0.0 else base - weighted
  }

  /** An attribute on which every player that holds it agrees has no gain. */
  lemma UselessAttributeHasNoGain(players: seq<Player>, state: State, attr: string, log2: real -> real)
    requires SharedKey(players, attr)
    ensures Gain(players, state, attr, log2) == 0.0
  {
    SingleGroup(players, attr);
  }

  lemma ContributionReadsLogOnlyAtPositives(names: seq<string>, state: State, total: real, f: real -> real, h: real -> real)
    requires forall x | x > 0.0 :: f(x) == h(x)
    ensures Contribution(names, state, total, f) == Contribution(names, state, total, h)
  {
    var gw := GroupWeight(names, state);
    if gw != 0.0 && total != 0.0 {
      var probs := GroupProbs(names, state, gw);
      EntropyReadsLogOnlyAtPositives(probs, f, h);
    }
  }

  lemma {:induction false} WeightedReadsLogOnlyAtPositives(g: Groups, state: State, total: real, f: real -> real, h: real -> real, j: nat)
    requires g.Indexed() && j <= |g.keys|
    requires forall x | x > 0.0 :: f(x) == h(x)
    ensures WeightedUpTo(g, state, total, f, j) == WeightedUpTo(g, state, total, h, j)
  {
    if j > 0 {
      WeightedReadsLogOnlyAtPositives(g, state, total, f, h, j - 1);
      ContributionReadsLogOnlyAtPositives(g.members[g.keys[j - 1]], state, total, f, h);
    }
  }

  /** The gain, like the entropy, never evaluates the logarithm outside the positive reals. */
  lemma GainReadsLogOnlyAtPositives(players: seq<Player>, state: State, attr: string, f: real -> real, h: real -> real)
    requires forall x | x > 0.0 :: f(x) == h(x)
    ensures Gain(players, state, attr, f) == Gain(players, state, attr, h)
  {
    EntropyReadsLogOnlyAtPositives(state.Values(), f, h);
    var groups := GroupsOf(players, attr);
    WeightedReadsLogOnlyAtPositives(groups, state, state.Total(), f, h, |groups.keys|);
  }

  /** The grouping loop of `information_gain`: `value_groups.setdefault(key, []).append(name)` for each player holding `attr`. */
  method GroupPlayers(players: seq<Player>, attr: string) returns (g: Groups)
    ensures g == GroupsOf(players, attr)
  {
    var keys: seq<string> := [];
    var groups: map<string, seq<string>> := map[];
    for i := 0 to |players|
      invariant Groups(keys, groups) == GroupsUpTo(players, attr, i)
    {
      var p := players[i];
      if attr !in p.attrs {
        continue;
      }
      var key := if IsBooleanAttribute(attr) then Show(Flag(Truthy(p.attrs[attr]))) else Show(p.attrs[attr]);
      assert GroupKey(p, attr) == Some(key);
      if key in groups {
        groups := groups[key := groups[key] + [p.name]];
      } else {
        keys := keys + [key];
        groups := groups[key := [p.name]];
      }
    }
    g := Groups(keys, groups);
  }

  /** The weighing loop of `information_gain`: the group entropies, each weighted by the group's share of `total`. */
  method WeighGroups(g: Groups, state: State, total: real, log2: real -> real) returns (weighted: real)
    requires g.Indexed()
    ensures weighted == WeightedUpTo(g, state, total, log2, |g.keys|)
  {
    weighted := 0.0;
    for j := 0 to |g.keys|
      invariant weighted == WeightedUpTo(g, state, total, log2, j)
    {
      var names := g.members[g.keys[j]];
      assert WeightedUpTo(g, state, total, log2, j + 1) == weighted + Contribution(names, state, total, log2);
      var groupWeight := GroupWeight(names, state);
      if groupWeight == 0.0 || total == 0.0 {
        continue;
      }
      var groupProbs := GroupProbs(names, state, groupWeight);
      if groupProbs != [] {
        weighted := weighted + Times(groupWeight / total, Entropy(groupProbs, log2));
      }
    }
  }

  /** `information_gain` as the source computes it: one pass to group, one to weigh the groups. */
  method InformationGain(players: seq<Player>, state: State, attr: string, log2: real -> real) returns (gain: real)
    ensures gain == Gain(players, state, attr, log2)
  {
    if players == [] || state.names == [] {
      return 0.0;
    }
    var baseProbs := state.Values();
    if Sum(baseProbs) == 0.0 {
      return 0.0;
    }
    var baseEntropy := Entropy(baseProbs, log2);
    var groups := GroupPlayers(players, attr);
    if |groups.keys| <= 1 {
      return 0.0;
    }
    var weighted := WeighGroups(groups, state, Sum(state.Values()), log2);
    gain := if 0.0 >= baseEntropy - weighted then 0.0 else baseEntropy - weighted;
  }
}

=== FILE: reals.dfy ===
/**
 * Python's numeric built-ins over lists of floats, read over exact reals:
 * `sum`, counting the positive entries, and `max` (which keeps the earliest of
 * equal maxima).
 */
module Reals {

  import opened Seqs

  /** `sum(xs)`, accumulated left to right. */
  function Sum(xs: seq<real>): real
    decreases |xs|
  {
    if xs == [] then 0.0 else Sum(xs[..|xs| - 1]) + xs[|xs| - 1]
  }

  /** `sum(xs + ys) == sum(xs) + sum(ys)`. */
  lemma {:induction false} SumConcat(xs: seq<real>, ys: seq<real>)
    ensures Sum(xs + ys) == Sum(xs) + Sum(ys)
    decreases |ys|
  {
    if ys != [] {
      var m := |ys| - 1;
      assert (xs + ys)[..|xs + ys| - 1] == xs + ys[..m];
      SumConcat(xs, ys[..m]);
    } else {
      assert xs + ys == xs;
    }
  }

  /** Taking out the term at `j` takes it out of the sum. */
  lemma SumWithout(ys: seq<real>, j: nat)
    requires j < |ys|
    ensures Sum(ys) == Sum(ys[..j] + ys[j + 1..]) + ys[j]
  {
    var x := ys[j];
    assert ys == ys[..j] + ([x] + ys[j + 1..]);
    SumConcat(ys[..j], [x] + ys[j + 1..]);
    SumConcat([x], ys[j + 1..]);
    SumConcat(ys[..j], ys[j + 1..]);
    assert Sum([x]) == x by {
      assert [x][..0] == [];
    }
  }

  /** The sum does not depend on the order of the terms. */
  lemma {:induction false} SumPermutation(xs: seq<real>, ys: seq<real>)
    requires multiset(xs) == multiset(ys)
    ensures Sum(xs) == Sum(ys)
    decreases |xs|
  {
    if xs == [] {
      assert |ys| == |multiset(ys)| == 0;
    } else {
      var n := |xs| - 1;
      var x := xs[n];
      assert x in multiset(ys);
      var j :| 0 <= j < |ys| && ys[j] == x;
      var rest := ys[..j] + ys[j + 1..];
      MultisetWithout(xs, n);
      MultisetWithout(ys, j);
      assert xs[..n] + xs[n + 1..] == xs[..n];
      SumPermutation(xs[..n], rest);
      SumWithout(ys, j);
    }
  }

  /** A sum of zeros is zero. */
  lemma {:induction false} SumOfZeros(xs: seq<real>)
    requires forall i | 0 <= i < |xs| :: xs[i] == 0.0
    ensures Sum(xs) == 0.0
  {
    if xs != [] {
      SumOfZeros(xs[..|xs| - 1]);
    }
  }

  /** A sum of non-negative reals is non-negative, and positive as soon as one term is. */
  lemma {:induction false} SumOfNonNegatives(xs: seq<real>)
    requires forall i | 0 <= i < |xs| :: xs[i] >= 0.0
    ensures Sum(xs) >= 0.0
    ensures (exists i | 0 <= i < |xs| :: xs[i] > 0.0) ==> Sum(xs) > 0.0
  {
    if xs != [] {
      var init := xs[..|xs| - 1];
      SumOfNonNegatives(init);
      if exists i | 0 <= i < |xs| :: xs[i] > 0.0 {
        var i :| 0 <= i < |xs| && xs[i] > 0.0;
        if i < |xs| - 1 {
          assert init[i] > 0.0;
        }
      }
    }
  }

  /**
   * The product of two reals. Kept behind a function so that the solver
   * meets a product of two unknowns only where a proof unfolds it.
   */
  function Times(a: real, b: real): real
  {
    a * b
  }

  /** Dividing every term by `t` divides the sum by `t`. */
  lemma {:induction false} SumDividedBy(xs: seq<real>, ys: seq<real>, t: real)
    requires t != 0.0
    requires |ys| == |xs|
    requires forall i | 0 <= i < |xs| :: ys[i] == xs[i] / t
    ensures Sum(ys) == Sum(xs) / t
  {
    if xs != [] {
      var n := |xs| - 1;
      SumDividedBy(xs[..n], ys[..n], t);
      assert Sum(ys) == Sum(xs[..n]) / t + xs[n] / t;
    }
  }

  /** `t / t == 1`: stated apart so that callers do not reason about division. */
  lemma SelfQuotient(t: real)
    requires t != 0.0
    ensures t / t == 1.0
  {
  }

  /** A sum of `|xs|` copies of `c` is `|xs|` times `c`. */
  lemma {:induction false} SumOfConstant(xs: seq<real>, c: real)
    requires forall i | 0 <= i < |xs| :: xs[i] == c
    ensures Sum(xs) == Times(|xs| as real, c)
  {
    if xs != [] {
      var n := |xs| - 1;
      SumOfConstant(xs[..n], c);
      assert Sum(xs) == Times(n as real, c) + c;
    }
  }

  /** The positions of the positive entries. */
  function PositiveIndices(xs: seq<real>): set<nat>
  {
    set i: nat | i < |xs| && xs[i] > 0.0
  }

  /** `k` equal shares of `1 / k` make one. */
  lemma EqualShares(k: nat)
    requires k > 0
    ensures Times(k as real, 1.0 / k as real) == 1.0
  {
  }

  /** `sum(1 for x in xs if x > 0)`. */
  function CountPositive(xs: seq<real>): (c: nat)
    ensures c == |PositiveIndices(xs)|
    ensures c <= |xs|
    ensures c == 0 <==> forall i | 0 <= i < |xs| :: xs[i] <= 0.0
    decreases |xs|
  {
    if xs == [] then
      assert PositiveIndices(xs) == {};
      0
    else
      var n := |xs| - 1;
      assert PositiveIndices(xs) == PositiveIndices(xs[..n]) + (if xs[n] > 0.0 then {n} else {});
      CountPositive(xs[..n]) + (if xs[n] > 0.0 then 1 else 0)
  }

  /** The index `next(...)` stops at: the first positive entry. */
  function FirstPositive(xs: seq<real>): (k: nat)
    requires exists i | 0 <= i < |xs| :: xs[i] > 0.0
    ensures k < |xs| && xs[k] > 0.0
    ensures forall j | 0 <= j < k :: xs[j] <= 0.0
  {
    if xs[0] > 0.0 then 0 else 1 + FirstPositive(xs[1..])
  }

  /**
   * The index `max` returns: it keeps the current best and replaces it only by
   * a strictly larger value, so the result is the first of the maxima.
   */
  function FirstMaxIndex(xs: seq<real>): (k: nat)
    requires xs != []
    ensures k < |xs|
    ensures forall j | 0 <= j < |xs| :: xs[j] <= xs[k]
    ensures forall j | 0 <= j < k :: xs[j] < xs[k]
    decreases |xs|
  {
    if |xs| == 1 then 0
    else
      var k := FirstMaxIndex(xs[..|xs| - 1]);
      if xs[|xs| - 1] > xs[k] then |xs| - 1 else k
  }
}

=== FILE: selection.dfy ===
/**
 * Question selection: score every attribute of the schema, keep those with
 * positive gain, and ask about the first one with the largest gain, offering
 * the answers a player could give.
 */
module Selection {
  import opened Wrappers
  import opened Reals
  import opened Text
  import opened Catalogue
  import opened Belief
  import opened Scoring

  /** A question: the attribute asked about and the answers offered. */
  datatype Question = Question(attr: string, options: seq<string>)

  /** `[str(p[attr]) for p in players if state.get(p["name"], 0) > 0]`. */
  function LiveValues(players: seq<Player>, state: State, attr: string): seq<string>
    requires Defines(players, attr)
    decreases |players|
  {
    if players == [] then []
    else
      var init := players[..|players| - 1];
      var p := players[|players| - 1];
      LiveValues(init, state, attr) + (if state.Get(p.name) > 0.0 then [Show(p.attrs[attr])] else [])
  }

  /** A value some live player holds for `attr`. */
  ghost predicate HeldByLive(players: seq<Player>, state: State, attr: string, v: string)
    requires Defines(players, attr)
  {
    exists i | 0 <= i < |players| :: state.Get(players[i].name) > 0.0 && v == Show(players[i].attrs[attr])
  }

  lemma {:induction false} LiveValuesMeaning(players: seq<Player>, state: State, attr: string)
    requires Defines(players, attr)
    ensures forall v :: v in LiveValues(players, state, attr) <==> HeldByLive(players, state, attr, v)
    decreases |players|
  {
    if players != [] {
      var init := players[..|players| - 1];
      var p := players[|players| - 1];
      LiveValuesMeaning(init, state, attr);
      forall v ensures v in LiveValues(players, state, attr) <==> HeldByLive(players, state, attr, v) {
        if HeldByLive(players, state, attr, v) {
          var i :| 0 <= i < |players| && state.Get(players[i].name) > 0.0 && v == Show(players[i].attrs[attr]);
          if i < |init| {
            assert init[i] == players[i];
            assert HeldByLive(init, state, attr, v);
          }
        }
        if HeldByLive(init, state, attr, v) {
          var i :| 0 <= i < |init| && state.Get(init[i].name) > 0.0 && v == Show(init[i].attrs[attr]);
          assert players[i] == init[i];
        }
      }
    }
  }

  /**
   * The answers offered for `attr`: yes and no for a boolean attribute,
   * otherwise the values live players hold, sorted and each once.
   */
  function AnswerOptions(players: seq<Player>, state: State, attr: string): seq<string>
    requires Defines(players, attr)
  {
    if IsBooleanAttribute(attr) then ["yes", "no"] else SortedSet(LiveValues(players, state, attr))
  }

  /**
   * What the options offered mean: yes and no for a boolean attribute;
   * otherwise exactly the values held by players of positive weight, in
   * increasing order and without duplicates.
   */
  lemma AnswerOptionsMeaning(players: seq<Player>, state: State, attr: string)
    requires Defines(players, attr)
    ensures IsBooleanAttribute(attr) ==> AnswerOptions(players, state, attr) == ["yes", "no"]
    ensures !IsBooleanAttribute(attr) ==> StrictlySorted(AnswerOptions(players, state, attr))
    ensures !IsBooleanAttribute(attr) ==> forall v ::
      v in AnswerOptions(players, state, attr) <==> HeldByLive(players, state, attr, v)
  {
    LiveValuesMeaning(players, state, attr);
  }

  /** The gain of each attribute, in schema order. */
  function Scores(players: seq<Player>, state: State, log2: real -> real): (scores: seq<real>)
  {
    seq(|ATTRIBUTES|, i requires 0 <= i < |ATTRIBUTES| => Gain(players, state, ATTRIBUTES[i], log2))
  }

  /** The schema positions, below `n`, of the attributes with positive gain, in order. */
  function PositiveAttributes(scores: seq<real>, n: nat): (r: seq<nat>)
    requires n <= |scores|
    ensures forall k | 0 <= k < |r| :: r[k] < n && scores[r[k]] > 0.0
    ensures forall k, l | 0 <= k < l < |r| :: r[k] < r[l]
    ensures forall j {:trigger j in r} | 0 <= j < n && scores[j] > 0.0 :: j in r
  {
    if n == 0 then []
    else PositiveAttributes(scores, n - 1) + (if scores[n - 1] > 0.0 then [n - 1] else [])
  }

  /** The `gains` dictionary: attribute and gain for each position in `idx`. */
  function Pairs(scores: seq<real>, idx: seq<nat>): (gains: seq<(string, real)>)
    requires |scores| == |ATTRIBUTES|
    requires forall k | 0 <= k < |idx| :: idx[k] < |scores|
  {
    seq(|idx|, k requires 0 <= k < |idx| => (ATTRIBUTES[idx[k]], scores[idx[k]]))
  }

  /** `gains.values()`. */
  function Seconds(gains: seq<(string, real)>): (r: seq<real>)
  {
    seq(|gains|, k requires 0 <= k < |gains| => gains[k].1)
  }

  /** Position `i` holds a positive gain, no position holds more, and every earlier one holds less. */
  ghost predicate FirstBest(scores: seq<real>, i: int)
  {
    && 0 <= i < |scores|
    && scores[i] > 0.0
    && (forall j | 0 <= j < |scores| :: scores[j] <= scores[i])
    && (forall j | 0 <= j < i :: scores[j] < scores[i])
  }

  /** The gains at the positions in `idx`. */
  function Ranked(scores: seq<real>, idx: seq<nat>): (xs: seq<real>)
    requires forall k | 0 <= k < |idx| :: idx[k] < |scores|
    ensures |xs| == |idx| && forall k | 0 <= k < |idx| :: xs[k] == scores[idx[k]]
  {
    seq(|idx|, k requires 0 <= k < |idx| => scores[idx[k]])
  }

  /** `idx` lists, in increasing order, exactly the positions of the positive gains. */
  ghost predicate ListsPositives(scores: seq<real>, idx: seq<nat>)
  {
    && (forall k | 0 <= k < |idx| :: idx[k] < |scores| && scores[idx[k]] > 0.0)
    && (forall k, l | 0 <= k < l < |idx| :: idx[k] < idx[l])
    && (forall j {:trigger j in idx} | 0 <= j < |scores| && scores[j] > 0.0 :: j in idx)
  }

  /** With no positive position listed, no gain is positive. */
  lemma NoPositives(scores: seq<real>, idx: seq<nat>)
    requires ListsPositives(scores, idx) && idx == []
    ensures forall j | 0 <= j < |scores| :: scores[j] <= 0.0
  {
    forall j | 0 <= j < |scores| ensures scores[j] <= 0.0 {
      assert j !in idx;
    }
  }

  /** One more attribute scored: `gains` grows by it exactly when its gain is positive. */
  lemma PairsStep(scores: seq<real>, i: nat)
    requires |scores| == |ATTRIBUTES| && i < |scores|
    ensures var before, after := PositiveAttributes(scores, i), PositiveAttributes(scores, i + 1);
      Pairs(scores, after) ==
        if scores[i] > 0.0 then Pairs(scores, before) + [(ATTRIBUTES[i], scores[i])] else Pairs(scores, before)
  {
    var before := PositiveAttributes(scores, i);
    if scores[i] > 0.0 {
      assert PositiveAttributes(scores, i + 1) == before + [i];
      assert Pairs(scores, before + [i]) == Pairs(scores, before) + [(ATTRIBUTES[i], scores[i])];
    }
  }

  /** The first maximum among the positive gains is the first maximum overall. */
  lemma FirstMaxOfPositives(scores: seq<real>, idx: seq<nat>, k: nat)
    requires ListsPositives(scores, idx) && idx != []
    requires k == FirstMaxIndex(Ranked(scores, idx))
    ensures FirstBest(scores, idx[k])
  {
    var xs := Ranked(scores, idx);
    var i := idx[k];
    forall j | 0 <= j < |scores| ensures scores[j] <= scores[i] {
      if scores[j] > 0.0 {
        assert j in idx;
        var l :| 0 <= l < |idx| && idx[l] == j;
        assert xs[l] <= xs[k];
      }
    }
    forall j | 0 <= j < i ensures scores[j] < scores[i] {
      if scores[j] > 0.0 {
        assert j in idx;
        var l :| 0 <= l < |idx| && idx[l] == j;
        assert l < k;
        assert xs[l] < xs[k];
      }
    }
  }

  /**
   * The schema position `max(gains, key=gains.get)` picks: the first of the
   * largest positive scores, or nothing when no score is positive.
   */
  function BestIndex(scores: seq<real>): (r: Option<nat>)
    ensures r.None? <==> forall i | 0 <= i < |scores| :: scores[i] <= 0.0
    ensures r.Some? ==> FirstBest(scores, r.value)
  {
    var idx := PositiveAttributes(scores, |scores|);
    if idx == [] then
      NoPositives(scores, idx);
      None
    else
      var k := FirstMaxIndex(Ranked(scores, idx));
      FirstMaxOfPositives(scores, idx, k);
      Some(idx[k])
  }

  /** The maximum of the `gains` dictionary is the attribute at `BestIndex`. */
  lemma PairsPick(scores: seq<real>)
    requires |scores| == |ATTRIBUTES|
    ensures var gains := Pairs(scores, PositiveAttributes(scores, |scores|));
      && (gains == [] <==> BestIndex(scores).None?)
      && (gains != [] ==>
            BestIndex(scores).Some? && gains[FirstMaxIndex(Seconds(gains))].0 == ATTRIBUTES[BestIndex(scores).value])
  {
    var idx := PositiveAttributes(scores, |scores|);
    var gains := Pairs(scores, idx);
    if gains != [] {
      assert Seconds(gains) == Ranked(scores, idx);
    }
  }

  /**
   * `best_question(players, state)`: nothing when the state has at most one
   * key or no attribute has positive gain; otherwise the first attribute of
   * largest gain, with its answer options.
   */
  function SelectQuestion(players: seq<Player>, state: State, log2: real -> real): (q: Option<Question>)
    requires Complete(players)
    ensures q.None? <==>
      |state.names| <= 1 || forall i | 0 <= i < |ATTRIBUTES| :: Scores(players, state, log2)[i] <= 0.0
    ensures q.Some? ==> Defines(players, q.value.attr)
    ensures q.Some? ==> exists i | 0 <= i < |ATTRIBUTES| ::
      q.value.attr == ATTRIBUTES[i] && FirstBest(Scores(players, state, log2), i)
    ensures q.Some? ==> q.value.options == AnswerOptions(players, state, q.value.attr)
  {
    if |state.names| <= 1 then None
    else
      var scores := Scores(players, state, log2);
      match BestIndex(scores)
      case None => None
      case Some(i) =>
        var best := ATTRIBUTES[i];
        Some(Question(best, AnswerOptions(players, state, best)))
  }

  /** `possible_answers.get(attr, [])`. */
  function Lookup(possible: map<string, seq<string>>, attr: string): seq<string>
  {
    if attr in possible then possible[attr] else []
  }

  /**
   * `possible_answers` agrees with the answer options: every recorded entry
   * holds the options of its attribute, and every attribute in `gains` that
   * has no entry has no options.
   */
  ghost predicate Recorded(players: seq<Player>, state: State, gains: seq<(string, real)>, possible: map<string, seq<string>>)
  {
    && (forall a | a in possible :: Defines(players, a) && possible[a] == AnswerOptions(players, state, a))
    && (forall k | 0 <= k < |gains| ::
          Defines(players, gains[k].0) && Lookup(possible, gains[k].0) == AnswerOptions(players, state, gains[k].0))
  }

  /** Recording one more attribute, with an entry exactly when it has options, keeps the agreement. */
  lemma RecordStep(players: seq<Player>, state: State, gains: seq<(string, real)>, possible: map<string, seq<string>>,
                   attr: string, gain: real, options: seq<string>)
    requires Recorded(players, state, gains, possible)
    requires Defines(players, attr) && options == AnswerOptions(players, state, attr)
    ensures Recorded(players, state, gains + [(attr, gain)], if options != [] then possible[attr := options] else possible)
  {
  }

  /**
   * The loop of `best_question`: score each attribute in schema order,
   * recording in `gains` those with positive gain and in `possible` their
   * non-empty answer options.
   */
  method ScoreAttributes(players: seq<Player>, state: State, log2: real -> real, ghost scores: seq<real>)
    returns (gains: seq<(string, real)>, possible: map<string, seq<string>>)
    requires Complete(players)
    requires |scores| == |ATTRIBUTES|
    requires forall i {:trigger Gain(players, state, ATTRIBUTES[i], log2)} | 0 <= i < |ATTRIBUTES| ::
      scores[i] == Gain(players, state, ATTRIBUTES[i], log2)
    ensures gains == Pairs(scores, PositiveAttributes(scores, |scores|))
    ensures Recorded(players, state, gains, possible)
  {
    gains, possible := [], map[];
    for i := 0 to |ATTRIBUTES|
      invariant gains == Pairs(scores, PositiveAttributes(scores, i))
      invariant Recorded(players, state, gains, possible)
    {
      var attr := ATTRIBUTES[i];
      var gain := InformationGain(players, state, attr, log2);
      PairsStep(scores, i);
      if gain > 0.0 {
        RecordStep(players, state, gains, possible, attr, gain, AnswerOptions(players, state, attr));
        gains := gains + [(attr, gain)];
        if IsBooleanAttribute(attr) {
          possible := possible[attr := ["yes", "no"]];
        } else {
          var unique := SortedSet(LiveValues(players, state, attr));
          if unique != [] {
            possible := possible[attr := unique];
          }
        }
      }
    }
  }

  /** `best_question` as the source computes it, from the `gains` and `possible_answers` dictionaries. */
  method BestQuestion(players: seq<Player>, state: State, log2: real -> real) returns (q: Option<Question>)
    requires Complete(players)
    ensures q == SelectQuestion(players, state, log2)
  {
    if |state.names| <= 1 {
      return None;
    }
    var gains, possible := ScoreAttributes(players, state, log2, Scores(players, state, log2));
    PairsPick(Scores(players, state, log2));
    if gains == [] {
      return None;
    }
    var k := FirstMaxIndex(Seconds(gains));
    var best := gains[k].0;
    q := Some(Question(best, Lookup(possible, best)));
  }
}

=== FILE: seqs.dfy ===
/**
 * Facts about sequences that do not depend on what they hold: mapping a
 * function over a sequence, and sequences without repetitions.
 */
module Seqs {

  /** `[f(x) for x in xs]`. */
  function Map<A, B>(f: A -> B, xs: seq<A>): (ys: seq<B>)
    ensures |ys| == |xs|
  {
    seq(|xs|, i requires 0 <= i < |xs| => f(xs[i]))
  }

  /** No element occurs twice. */
  predicate Distinct<T(==)>(xs: seq<T>)
  {
    forall i, j | 0 <= i < j < |xs| :: xs[i] != xs[j]
  }

  /** A sequence without repetitions holds each of its elements once. */
  lemma {:induction false} DistinctMultiset<T>(xs: seq<T>)
    requires Distinct(xs)
    ensures forall x :: multiset(xs)[x] == if x in xs then 1 else 0
    decreases |xs|
  {
    if xs != [] {
      var n := |xs| - 1;
      var init := xs[..n];
      assert Distinct(init);
      DistinctMultiset(init);
      assert xs == init + [xs[n]];
      assert xs[n] !in init;
    }
  }

  /** Two sequences without repetitions and with the same elements are rearrangements of each other. */
  lemma DistinctSameElements<T>(xs: seq<T>, ys: seq<T>)
    requires Distinct(xs) && Distinct(ys)
    requires forall x :: x in xs <==> x in ys
    ensures multiset(xs) == multiset(ys)
  {
    DistinctMultiset(xs);
    DistinctMultiset(ys);
    assert forall x :: multiset(xs)[x] == multiset(ys)[x];
  }

  /** Mapping distributes over concatenation. */
  lemma MapConcat<A, B>(f: A -> B, xs: seq<A>, ys: seq<A>)
    ensures Map(f, xs + ys) == Map(f, xs) + Map(f, ys)
  {
  }

  /** Taking out the element at `j` takes one copy of it out of the multiset. */
  lemma MultisetWithout<T>(ys: seq<T>, j: nat)
    requires j < |ys|
    ensures multiset(ys[..j] + ys[j + 1..]) == multiset(ys) - multiset{ys[j]}
    ensures multiset(ys) == multiset(ys[..j] + ys[j + 1..]) + multiset{ys[j]}
  {
    assert ys == ys[..j] + [ys[j]] + ys[j + 1..];
  }

  /** Mapping commutes with taking out the element at `j`. */
  lemma MapWithout<A, B>(f: A -> B, ys: seq<A>, j: nat)
    requires j < |ys|
    ensures Map(f, ys[..j] + ys[j + 1..]) == Map(f, ys)[..j] + Map(f, ys)[j + 1..]
    ensures multiset(Map(f, ys)) == multiset(Map(f, ys[..j] + ys[j + 1..])) + multiset{f(ys[j])}
  {
    MultisetWithout(Map(f, ys), j);
  }

  /** Mapping the same function over two rearrangements of one multiset gives rearrangements again. */
  lemma {:induction false} MapMultiset<A, B>(f: A -> B, xs: seq<A>, ys: seq<A>)
    requires multiset(xs) == multiset(ys)
    ensures multiset(Map(f, xs)) == multiset(Map(f, ys))
    decreases |xs|
  {
    if xs == [] {
      assert |ys| == |multiset(ys)| == 0;
    } else {
      var n := |xs| - 1;
      var x := xs[n];
      assert x in multiset(ys);
      var j :| 0 <= j < |ys| && ys[j] == x;
      MultisetWithout(xs, n);
      MultisetWithout(ys, j);
      assert xs[..n] + xs[n + 1..] == xs[..n];
      MapMultiset(f, xs[..n], ys[..j] + ys[j + 1..]);
      MapWithout(f, xs, n);
      MapWithout(f, ys, j);
    }
  }
}

=== FILE: text.dfy ===
/**
 * The few Python string operations the engine relies on: `str.lower`,
 * `str.strip`, the `<` order on `str`, and `sorted(set(...))` over strings.
 */
module Text {

  /**
   * Python's `str.isspace`, which decides what `str.strip()` removes: the
   * controls U+0009 to U+000D and U+001C to U+001F, the space, U+0085, the
   * no-break space U+00A0, and the Unicode spaces and separators U+1680,
   * U+2000 to U+200A, U+2028, U+2029, U+202F, U+205F and U+3000.
   */
  predicate IsSpace(c: char)
  {
    || '\t' <= c <= '\r'
    || '\U{1C}' <= c <= ' '
    || c == '\U{85}' || c == '\U{A0}' || c == '\U{1680}'
    || '\U{2000}' <= c <= '\U{200A}'
    || c == '\U{2028}' || c == '\U{2029}' || c == '\U{202F}' || c == '\U{205F}' || c == '\U{3000}'
  }

  /** `str.lower()` on the ASCII letters; every other character is kept. */
  function Lower(s: string): (r: string)
    ensures |r| == |s|
    ensures forall i | 0 <= i < |s| :: 'A' <= s[i] <= 'Z' ==> r[i] as int == s[i] as int + 32
    ensures forall i | 0 <= i < |s| :: !('A' <= s[i] <= 'Z') ==> r[i] == s[i]
  {
    seq(|s|, i requires 0 <= i < |s| =>
      if 'A' <= s[i] <= 'Z' then (s[i] as int - 'A' as int + 'a' as int) as char else s[i])
  }

  /**
   * `a` and `b` spell the same text up to the case of ASCII letters: at each
   * position the characters are equal, or one is an upper-case letter and the
   * other its lower-case form.
   */
  predicate SameIgnoringCase(a: string, b: string)
  {
    && |a| == |b|
    && forall i | 0 <= i < |a| ::
         || a[i] == b[i]
         || ('A' <= a[i] <= 'Z' && b[i] as int == a[i] as int + 32)
         || ('A' <= b[i] <= 'Z' && a[i] as int == b[i] as int + 32)
  }

  /** Comparing lower-cased texts is comparing them up to the case of ASCII letters. */
  lemma LowerEqualIgnoresCase(a: string, b: string)
    ensures Lower(a) == Lower(b) <==> SameIgnoringCase(a, b)
  {
    if |a| == |b| {
      if Lower(a) == Lower(b) {
        forall i | 0 <= i < |a|
          ensures || a[i] == b[i]
                  || ('A' <= a[i] <= 'Z' && b[i] as int == a[i] as int + 32)
                  || ('A' <= b[i] <= 'Z' && a[i] as int == b[i] as int + 32)
        {
          assert Lower(a)[i] == Lower(b)[i];
        }
      }
      if SameIgnoringCase(a, b) {
        forall i | 0 <= i < |a| ensures Lower(a)[i] == Lower(b)[i] {
        }
      }
    } else {
      assert |Lower(a)| != |Lower(b)|;
    }
  }

  /** Every character of `s` from `lo` up to `hi` is whitespace. */
  predicate Blank(s: string, lo: nat, hi: nat)
    requires lo <= hi <= |s|
  {
    forall k {:trigger IsSpace(s[k])} | lo <= k < hi :: IsSpace(s[k])
  }

  /** Where the text of `s` starts, looking from `i`: the first non-whitespace position, or `|s|`. */
  function StartOfText(s: string, i: nat): (k: nat)
    requires i <= |s|
    ensures i <= k <= |s| && Blank(s, i, k)
    ensures k < |s| ==> !IsSpace(s[k])
    decreases |s| - i
  {
    if i < |s| && IsSpace(s[i]) then StartOfText(s, i + 1) else i
  }

  /** Where the text of `s` ends, looking back from `j` but not past `lo`. */
  function EndOfText(s: string, lo: nat, j: nat): (k: nat)
    requires lo <= j <= |s|
    ensures lo <= k <= j && Blank(s, k, j)
    ensures k > lo ==> !IsSpace(s[k - 1])
  {
    if j > lo && IsSpace(s[j - 1]) then EndOfText(s, lo, j - 1) else j
  }

  /** `str.strip()`: `s` without its surrounding whitespace. */
  function Strip(s: string): (r: string)
    ensures r == [] || (!IsSpace(r[0]) && !IsSpace(r[|r| - 1]))
    ensures exists i, j | 0 <= i <= j <= |s| :: r == s[i..j] && Blank(s, 0, i) && Blank(s, j, |s|)
    ensures s == [] || (!IsSpace(s[0]) && !IsSpace(s[|s| - 1])) ==> r == s
  {
    var i := StartOfText(s, 0);
    var j := EndOfText(s, i, |s|);
    assert s[i..j] == [] || (s[i..j][0] == s[i] && s[i..j][j - i - 1] == s[j - 1]);
    s[i..j]
  }

  /** Python's `a < b` on `str`: lexicographic by code point, a proper prefix first. */
  predicate Less(a: string, b: string)
  {
    if a == [] then b != []
    else if b == [] then false
    else if a[0] == b[0] then Less(a[1..], b[1..])
    else a[0] < b[0]
  }

  lemma LessIrreflexive(a: string)
    ensures !Less(a, a)
  {
  }

  lemma {:induction false} LessTransitive(a: string, b: string, c: string)
    requires Less(a, b) && Less(b, c)
    ensures Less(a, c)
  {
    if a != [] && b != [] && c != [] && a[0] == b[0] && b[0] == c[0] {
      LessTransitive(a[1..], b[1..], c[1..]);
    }
  }

  lemma {:induction false} LessTotal(a: string, b: string)
    requires a != b
    ensures Less(a, b) || Less(b, a)
  {
    if a != [] && b != [] && a[0] == b[0] {
      assert a == [a[0]] + a[1..] && b == [b[0]] + b[1..];
      LessTotal(a[1..], b[1..]);
    }
  }

  predicate StrictlySorted(s: seq<string>)
  {
    forall i, j | 0 <= i < j < |s| :: Less(s[i], s[j])
  }

  /** Adds `x` to a sorted, duplicate-free list, keeping it so. */
  function Insert(x: string, s: seq<string>): (r: seq<string>)
    requires StrictlySorted(s)
    ensures StrictlySorted(r)
    ensures forall y :: y in r <==> y == x || y in s
  {
    if s == [] then [x]
    else if x == s[0] then s
    else if Less(x, s[0]) then
      assert forall j | 0 < j < |s| :: Less(x, s[j]) by {
        forall j | 0 < j < |s| ensures Less(x, s[j]) {
          LessTransitive(x, s[0], s[j]);
        }
      }
      [x] + s
    else
      LessTotal(x, s[0]);
      var t := Insert(x, s[1..]);
      assert forall y | y in t :: Less(s[0], y);
      [s[0]] + t
  }

  /** `sorted(set(xs))`: the distinct values of `xs` in increasing order. */
  function SortedSet(xs: seq<string>): (r: seq<string>)
    ensures StrictlySorted(r)
    ensures forall y :: y in r <==> y in xs
    decreases |xs|
  {
    if xs == [] then []
    else Insert(xs[|xs| - 1], SortedSet(xs[..|xs| - 1]))
  }
}

=== FILE: update.dfy ===
/**
 * The belief update after an answer: players whose value disagrees with the
 * answer drop to weight zero, players already at zero (or absent) are
 * dropped from the state, and the surviving weights are renormalised to sum
 * to one whenever their total is positive.
 */
module Update {
  import opened Reals
  import opened Text
  import opened Catalogue
  import opened Belief

  /** What a text answer to a yes/no question reads as, after `answer.lower().strip()`. */
  datatype Reading = Yes | No | Other(text: string)

  function Read(answer: string): (r: Reading)
    ensures var t := Strip(Lower(answer)); r == Yes <==> t == "yes" || t == "true" || t == "y"
    ensures var t := Strip(Lower(answer)); r == No <==> t == "no" || t == "false" || t == "n"
    ensures r.Other? ==> r.text == Strip(Lower(answer))
  {
    var t := Strip(Lower(answer));
    if t == "yes" || t == "true" || t == "y" then Yes
    else if t == "no" || t == "false" || t == "n" then No
    else Other(t)
  }

  /**
   * Whether player `p` agrees with `answer` on `attr`. A boolean attribute
   * compares `bool(p[attr])` with the answer read as a boolean (a text that
   * reads as neither is a string, which equals no boolean); any other
   * attribute compares `str(p[attr]).lower()` with `str(answer).lower()`.
   */
  function Matches(p: Player, attr: string, answer: Value): bool
    requires attr in p.attrs
  {
    if IsBooleanAttribute(attr) then
      var held := Truthy(p.attrs[attr]);
      match answer
      case Flag(b) => held == b
      case Word(s) =>
        match Read(s)
        case Yes => held
        case No => !held
        case Other(_) => false
    else
      Lower(Show(p.attrs[attr])) == Lower(Show(answer))
  }

  /** Every player the update looks at (one with non-zero prior weight) has the attribute. */
  predicate DefinedWhereWeighted(players: seq<Player>, state: State, attr: string)
  {
    forall i | 0 <= i < |players| && state.Get(players[i].name) != 0.0 :: attr in players[i].attrs
  }

  /** `new_state` after the first `n` players, before normalisation. */
  function Carried(players: seq<Player>, state: State, attr: string, answer: Value, n: nat): (r: State)
    requires n <= |players| && DefinedWhereWeighted(players, state, attr)
  {
    if n == 0 then State([], map[])
    else
      var r := Carried(players, state, attr, answer, n - 1);
      var p := players[n - 1];
      var prior := state.Get(p.name);
      if prior == 0.0 then r
      else
        var w := if Matches(p, attr, answer) then prior else 0.0;
        State(if p.name in r.weight then r.names else r.names + [p.name], r.weight[p.name := w])
  }

  /** The carried state is a well-formed ordered dictionary. */
  lemma {:induction false} CarriedValid(players: seq<Player>, state: State, attr: string, answer: Value, n: nat)
    requires n <= |players| && DefinedWhereWeighted(players, state, attr)
    ensures Carried(players, state, attr, answer, n).Valid()
  {
    if n > 0 {
      CarriedValid(players, state, attr, answer, n - 1);
    }
  }

  /** `update_state(players, state, attr, answer)`. */
  function Updated(players: seq<Player>, state: State, attr: string, answer: Value): (r: State)
    requires DefinedWhereWeighted(players, state, attr)
    ensures r.Valid()
    ensures r.names == Carried(players, state, attr, answer, |players|).names
  {
    var carried := Carried(players, state, attr, answer, |players|);
    CarriedValid(players, state, attr, answer, |players|);
    var total := carried.Total();
    if total > 0.0 then carried.DividedBy(total) else carried
  }

  /** Some player among the first `n` is called `name`. */
  ghost predicate Listed(players: seq<Player>, name: string, n: nat)
    requires n <= |players|
  {
    exists i | 0 <= i < n :: players[i].name == name
  }

  /**
   * Monotonic elimination: the carried keys are exactly the listed players
   * whose prior weight is not zero, and a player at zero, or absent from the
   * state, gets no weight.
   */
  lemma {:induction false} CarriedKeys(players: seq<Player>, state: State, attr: string, answer: Value, n: nat)
    requires n <= |players| && DefinedWhereWeighted(players, state, attr)
    ensures forall name :: name in Carried(players, state, attr, answer, n).weight <==>
      Listed(players, name, n) && state.Get(name) != 0.0
  {
    if n > 0 {
      CarriedKeys(players, state, attr, answer, n - 1);
      forall name ensures name in Carried(players, state, attr, answer, n).weight <==>
        Listed(players, name, n) && state.Get(name) != 0.0
      {
        if Listed(players, name, n) && !Listed(players, name, n - 1) {
          assert players[n - 1].name == name;
        }
        if Listed(players, name, n - 1) {
          var i :| 0 <= i < n - 1 && players[i].name == name;
          assert Listed(players, name, n);
        }
      }
    }
  }

  /**
   * The weight carried for a player with non-zero prior is decided by the
   * last player of that name: its prior when it matches, zero otherwise.
   */
  lemma {:induction false} CarriedWeight(players: seq<Player>, state: State, attr: string, answer: Value, n: nat, i: nat)
    requires n <= |players| && DefinedWhereWeighted(players, state, attr)
    requires i < n && state.Get(players[i].name) != 0.0 && LastOfName(players, i, n)
    ensures Carried(players, state, attr, answer, n).Get(players[i].name) ==
      if Matches(players[i], attr, answer) then state.Get(players[i].name) else 0.0
  {
    var r := Carried(players, state, attr, answer, n - 1);
    var p := players[n - 1];
    CarriedValid(players, state, attr, answer, n - 1);
    if i < n - 1 {
      CarriedWeight(players, state, attr, answer, n - 1, i);
      if state.Get(p.name) != 0.0 {
        var w := if Matches(p, attr, answer) then state.Get(p.name) else 0.0;
        assert Carried(players, state, attr, answer, n) == r.Put(p.name, w);
      }
    } else {
      var w := if Matches(p, attr, answer) then state.Get(p.name) else 0.0;
      assert Carried(players, state, attr, answer, n) == r.Put(p.name, w);
    }
  }

  /** Every carried weight is either the prior weight of that name or zero. */
  lemma {:induction false} CarriedFromPrior(players: seq<Player>, state: State, attr: string, answer: Value, n: nat)
    requires n <= |players| && DefinedWhereWeighted(players, state, attr)
    ensures forall name | name in Carried(players, state, attr, answer, n).weight ::
      var w := Carried(players, state, attr, answer, n).Get(name);
      w == state.Get(name) || w == 0.0
  {
    if n > 0 {
      CarriedFromPrior(players, state, attr, answer, n - 1);
    }
  }

  /** The last player among the first `n` called like `players[i]` is `players[i]`. */
  ghost predicate LastOfName(players: seq<Player>, i: nat, n: nat)
    requires i < n <= |players|
  {
    forall j | i < j < n :: players[j].name != players[i].name
  }

  lemma LastOfNameExtends(players: seq<Player>, i: nat, n: nat)
    requires i < n - 1 && n <= |players|
    requires LastOfName(players, i, n - 1) && players[n - 1].name != players[i].name
    ensures LastOfName(players, i, n)
  {
  }

  /** A carried weight that is not zero is the prior weight of that name. */
  lemma {:induction false} CarriedLiveIsPrior(players: seq<Player>, state: State, attr: string, answer: Value, n: nat, name: string)
    requires n <= |players| && DefinedWhereWeighted(players, state, attr)
    requires Carried(players, state, attr, answer, n).Get(name) != 0.0
    ensures Carried(players, state, attr, answer, n).Get(name) == state.Get(name)
  {
    var r := Carried(players, state, attr, answer, n - 1);
    var p := players[n - 1];
    if p.name != name || state.Get(p.name) == 0.0 {
      assert Carried(players, state, attr, answer, n).Get(name) == r.Get(name);
      CarriedLiveIsPrior(players, state, attr, answer, n - 1, name);
    } else {
      var w := if Matches(p, attr, answer) then state.Get(name) else 0.0;
      assert Carried(players, state, attr, answer, n).weight == r.weight[name := w];
    }
  }

  /** A carried weight that is not zero belongs to a name whose last player matches the answer. */
  lemma {:induction false} CarriedLiveMatches(players: seq<Player>, state: State, attr: string, answer: Value, n: nat, name: string)
    requires n <= |players| && DefinedWhereWeighted(players, state, attr)
    requires Carried(players, state, attr, answer, n).Get(name) != 0.0
    ensures exists i | 0 <= i < n ::
      players[i].name == name && state.Get(name) != 0.0 && LastOfName(players, i, n) && Matches(players[i], attr, answer)
  {
    var r := Carried(players, state, attr, answer, n - 1);
    var p := players[n - 1];
    var prior := state.Get(p.name);
    if prior != 0.0 && p.name == name {
      var w := if Matches(p, attr, answer) then prior else 0.0;
      assert Carried(players, state, attr, answer, n).weight == r.weight[name := w];
      assert Matches(p, attr, answer);
      assert LastOfName(players, n - 1, n);
    } else if p.name == name {
      // a name at zero is never carried
      assert Carried(players, state, attr, answer, n) == r;
      CarriedLiveIsPrior(players, state, attr, answer, n - 1, name);
      assert false;
    } else {
      assert Carried(players, state, attr, answer, n).Get(name) == r.Get(name);
      CarriedLiveMatches(players, state, attr, answer, n - 1, name);
      var i :| 0 <= i < n - 1 && players[i].name == name && state.Get(name) != 0.0 && LastOfName(players, i, n - 1) && Matches(players[i], attr, answer);
      LastOfNameExtends(players, i, n);
    }
  }

  /** The non-negative total weight of the carried players, when the prior weights are non-negative. */
  lemma CarriedNonNegative(players: seq<Player>, state: State, attr: string, answer: Value)
    requires DefinedWhereWeighted(players, state, attr) && state.NonNegative()
    ensures Carried(players, state, attr, answer, |players|).NonNegative()
  {
    var carried := Carried(players, state, attr, answer, |players|);
    CarriedFromPrior(players, state, attr, answer, |players|);
    forall name | name in carried.weight ensures carried.weight[name] >= 0.0 {
      assert carried.Get(name) == carried.weight[name];
    }
  }

  /** A state whose weights are all zero sums to zero. */
  lemma DeadStateTotal(s: State)
    requires forall i | 0 <= i < |s.names| :: s.Get(s.names[i]) == 0.0
    ensures s.Total() == 0.0
  {
    SumOfZeros(s.Values());
  }

  /** The weights of a non-negative state sum to a positive total as soon as one of them is positive. */
  lemma LiveStateTotal(s: State, name: string)
    requires s.Valid() && s.NonNegative() && s.Get(name) > 0.0
    ensures s.Total() > 0.0
  {
    var xs := s.Values();
    assert name in s.names;
    var k :| 0 <= k < |s.names| && s.names[k] == name;
    assert xs[k] > 0.0;
    forall i | 0 <= i < |xs| ensures xs[i] >= 0.0 {
      assert s.names[i] in s.weight;
    }
    SumOfNonNegatives(xs);
  }

  /** The updated keys are exactly the listed players whose prior weight is not zero. */
  lemma UpdatedKeys(players: seq<Player>, state: State, attr: string, answer: Value)
    requires DefinedWhereWeighted(players, state, attr)
    ensures forall name :: name in Updated(players, state, attr, answer).weight <==>
      Listed(players, name, |players|) && state.Get(name) != 0.0
  {
    CarriedKeys(players, state, attr, answer, |players|);
  }

  /**
   * The updated weight of a player with non-zero prior, decided by the last
   * player of its name: zero if it does not match the answer; otherwise its
   * prior weight, divided by the carried total when that is positive.
   */
  lemma UpdatedWeight(players: seq<Player>, state: State, attr: string, answer: Value, i: nat)
    requires DefinedWhereWeighted(players, state, attr)
    requires i < |players| && LastOfName(players, i, |players|) && state.Get(players[i].name) != 0.0
    ensures var total := Carried(players, state, attr, answer, |players|).Total();
      Updated(players, state, attr, answer).Get(players[i].name) ==
        if !Matches(players[i], attr, answer) then 0.0
        else if total > 0.0 then state.Get(players[i].name) / total
        else state.Get(players[i].name)
  {
    var carried := Carried(players, state, attr, answer, |players|);
    CarriedWeight(players, state, attr, answer, |players|, i);
    var name := players[i].name;
    var total := carried.Total();
    var r := Updated(players, state, attr, answer);
    if total > 0.0 {
      assert r == carried.DividedBy(total);
      assert r.Get(name) == carried.Get(name) / total;
      assert !Matches(players[i], attr, answer) ==> 0.0 / total == 0.0;
    } else {
      assert r == carried;
    }
  }

  /** Monotonic elimination: a player at zero, or absent from the state, stays at zero. */
  lemma UpdateKeepsDeadDead(players: seq<Player>, state: State, attr: string, answer: Value, name: string)
    requires DefinedWhereWeighted(players, state, attr)
    requires state.Get(name) == 0.0
    ensures name !in Updated(players, state, attr, answer).weight
    ensures Updated(players, state, attr, answer).Get(name) == 0.0
  {
    CarriedKeys(players, state, attr, answer, |players|);
  }

  /** Whenever the carried total is positive, the updated weights sum to one. */
  lemma UpdatedSumsToOne(players: seq<Player>, state: State, attr: string, answer: Value)
    requires DefinedWhereWeighted(players, state, attr)
    requires Carried(players, state, attr, answer, |players|).Total() > 0.0
    ensures Updated(players, state, attr, answer).Total() == 1.0
  {
    CarriedValid(players, state, attr, answer, |players|);
    DividedByTotal(Carried(players, state, attr, answer, |players|));
  }

  /** When no player with positive prior matches, every weight is zero and nothing is divided. */
  lemma NoMatchZeroesAll(players: seq<Player>, state: State, attr: string, answer: Value)
    requires DefinedWhereWeighted(players, state, attr)
    requires forall i | 0 <= i < |players| && state.Get(players[i].name) != 0.0 && LastOfName(players, i, |players|) ::
      !Matches(players[i], attr, answer)
    ensures Updated(players, state, attr, answer) == Carried(players, state, attr, answer, |players|)
    ensures forall name :: Updated(players, state, attr, answer).Get(name) == 0.0
  {
    var carried := Carried(players, state, attr, answer, |players|);
    forall name ensures carried.Get(name) == 0.0 {
      if carried.Get(name) != 0.0 {
        CarriedLiveMatches(players, state, attr, answer, |players|, name);
        CarriedLiveIsPrior(players, state, attr, answer, |players|, name);
      }
    }
    DeadStateTotal(carried);
  }

  /** Some player with positive prior, the last of its name, matches the answer. */
  ghost predicate SomeLiveMatch(players: seq<Player>, state: State, attr: string, answer: Value)
    requires DefinedWhereWeighted(players, state, attr)
  {
    exists i | 0 <= i < |players| ::
      state.Get(players[i].name) > 0.0 && LastOfName(players, i, |players|) && Matches(players[i], attr, answer)
  }

  /** With non-negative prior weights the updated weights are non-negative. */
  lemma UpdatedNonNegative(players: seq<Player>, state: State, attr: string, answer: Value)
    requires DefinedWhereWeighted(players, state, attr) && state.NonNegative()
    ensures Updated(players, state, attr, answer).NonNegative()
  {
    var carried := Carried(players, state, attr, answer, |players|);
    CarriedValid(players, state, attr, answer, |players|);
    CarriedNonNegative(players, state, attr, answer);
    var total := carried.Total();
    if total > 0.0 {
      var r := carried.DividedBy(total);
      forall name | name in r.weight ensures r.weight[name] >= 0.0 {
        assert r.weight[name] == r.Get(name) == carried.Get(name) / total;
        assert carried.Get(name) == carried.weight[name];
        assert carried.Get(name) / total >= 0.0;
      }
    }
  }

  /** With non-negative priors, a match among the live players makes the updated weights sum to one. */
  lemma LiveMatchSumsToOne(players: seq<Player>, state: State, attr: string, answer: Value)
    requires DefinedWhereWeighted(players, state, attr) && state.NonNegative()
    requires SomeLiveMatch(players, state, attr, answer)
    ensures Updated(players, state, attr, answer).Total() == 1.0
  {
    var n := |players|;
    var carried := Carried(players, state, attr, answer, n);
    CarriedNonNegative(players, state, attr, answer);
    var i :| 0 <= i < n && state.Get(players[i].name) > 0.0 && LastOfName(players, i, n) && Matches(players[i], attr, answer);
    CarriedWeight(players, state, attr, answer, n, i);
    CarriedValid(players, state, attr, answer, n);
    LiveStateTotal(carried, players[i].name);
    UpdatedSumsToOne(players, state, attr, answer);
  }

  /** With non-negative priors and no match among the live players, every updated weight is zero. */
  lemma NoLiveMatchZeroesAll(players: seq<Player>, state: State, attr: string, answer: Value)
    requires DefinedWhereWeighted(players, state, attr) && state.NonNegative()
    requires !SomeLiveMatch(players, state, attr, answer)
    ensures forall name :: Updated(players, state, attr, answer).Get(name) == 0.0
  {
    var n := |players|;
    forall i | 0 <= i < n && state.Get(players[i].name) != 0.0 && LastOfName(players, i, n)
      ensures !Matches(players[i], attr, answer)
    {
      assert players[i].name in state.weight;
      assert state.Get(players[i].name) > 0.0;
    }
    NoMatchZeroesAll(players, state, attr, answer);
  }

  /**
   * With non-negative priors, an update leaves a non-negative state that is
   * either a distribution (sums to one) or all zero.
   */
  lemma UpdatedIsDistributionOrDead(players: seq<Player>, state: State, attr: string, answer: Value)
    requires DefinedWhereWeighted(players, state, attr) && state.NonNegative()
    ensures Updated(players, state, attr, answer).NonNegative()
    ensures Updated(players, state, attr, answer).Total() == 1.0 ||
      forall name :: Updated(players, state, attr, answer).Get(name) == 0.0
  {
    UpdatedNonNegative(players, state, attr, answer);
    if SomeLiveMatch(players, state, attr, answer) {
      LiveMatchSumsToOne(players, state, attr, answer);
    } else {
      NoLiveMatchZeroesAll(players, state, attr, answer);
    }
  }

  /** For a yes/no question, a text answer acts exactly as the boolean it reads as. */
  lemma TextAnswerReadsAsFlag(p: Player, attr: string, s: string)
    requires attr in p.attrs && IsBooleanAttribute(attr)
    ensures Read(s) == Yes ==> Matches(p, attr, Word(s)) == Matches(p, attr, Flag(true))
    ensures Read(s) == No ==> Matches(p, attr, Word(s)) == Matches(p, attr, Flag(false))
    ensures Read(s).Other? ==> !Matches(p, attr, Word(s))
  {
  }

  /**
   * For any other question the comparison ignores case and nothing else: the
   * answer matches exactly when its text and the player's differ at most in
   * the case of A to Z, a player matches its own value, and an answer given
   * as the text of a value acts as that value.
   */
  lemma TextAnswerIgnoresCase(p: Player, attr: string, answer: Value)
    requires attr in p.attrs && !IsBooleanAttribute(attr)
    ensures Matches(p, attr, answer) <==> SameIgnoringCase(Show(p.attrs[attr]), Show(answer))
    ensures Matches(p, attr, p.attrs[attr])
    ensures Matches(p, attr, Word(Show(answer))) == Matches(p, attr, answer)
  {
    LowerEqualIgnoresCase(Show(p.attrs[attr]), Show(answer));
  }

  /** `update_state` as the source runs it: build `new_state` player by player, then divide it in place. */
  method UpdateState(players: seq<Player>, state: State, attr: string, answer: Value) returns (r: State)
    requires DefinedWhereWeighted(players, state, attr)
    ensures r == Updated(players, state, attr, answer)
  {
    var newState := State([], map[]);
    for i := 0 to |players|
      invariant newState == Carried(players, state, attr, answer, i)
    {
      CarriedValid(players, state, attr, answer, i);
      var p := players[i];
      var current := state.Get(p.name);
      if current == 0.0 {
        assert Carried(players, state, attr, answer, i + 1) == newState;
        continue;
      }
      var matches := Matches(p, attr, answer);
      assert Carried(players, state, attr, answer, i + 1) == newState.Put(p.name, if matches then current else 0.0);
      if matches {
        newState := newState.Put(p.name, current);
      } else {
        newState := newState.Put(p.name, 0.0);
      }
    }
    CarriedValid(players, state, attr, answer, |players|);
    var total := Sum(newState.Values());
    if total > 0.0 {
      r := Normalise(newState, total);
    } else {
      r := newState;
    }
  }

  /** `for name in new_state: new_state[name] /= total`. */
  method Normalise(s: State, total: real) returns (r: State)
    requires s.Valid() && total != 0.0
    ensures r == s.DividedBy(total)
  {
    r := s;
    for j := 0 to |s.names|
      invariant r.Valid() && r.names == s.names
      invariant forall k | 0 <= k < j :: r.Get(s.names[k]) == s.Get(s.names[k]) / total
      invariant forall k | j <= k < |s.names| :: r.Get(s.names[k]) == s.Get(s.names[k])
    {
      var name := s.names[j];
      r := r.Put(name, r.Get(name) / total);
    }
    var d := s.DividedBy(total);
    assert r.weight.Keys == d.weight.Keys;
    forall name | name in r.weight ensures r.weight[name] == d.weight[name] {
      assert r.Get(name) == r.weight[name];
      var k :| 0 <= k < |s.names| && s.names[k] == name;
    }
  }
}

=== FILE: wrappers.dfy ===
/** Optional values: Python's `None` versus a present value. */
module Wrappers {
  datatype Option<T> = None | Some(value: T)
}
